=== FILE: README.md ===
# Contact book validation: a Dafny model

This project models the validation core of a small contact-book
application. It has a React front end and a FastAPI back end, and there
are three pieces:

- **The client-side validator** (`frontend/src/utils/validation.js`).
  - `validateContact` checks a seven-field contact draft and returns
    `{isValid, errors}`.
  - `isValidEmail` and `isValidPhone` are its two regular-expression tests.
  - `formatValidationErrors` joins the messages with ", ".
- **The server** (`backend/main.py`).
  - The pydantic `Contact` model: its declared length limits and its five
    field validators.
  - The four endpoints that read and write the `contacts` table, and the
    handler that turns a validation failure into a 422 response.
- **The add and edit forms** (`addContact.jsx`, `editContact.jsx`),
  modelled as a state machine. The state is the field values and the
  errors object behind the error panel. The events are submit, typing
  into an input, closing the panel, and the server's answer. The output
  is the requests the form sends.

The client's two regular expressions, for e-mail and for telephone, are
each written twice:

- as a ghost predicate read off the pattern's structure;
- as an executable scanner.

A lemma proves that the two accept the same strings. The server's
e-mail test uses the same e-mail pattern. The server's telephone pattern
`^\d{1,16}$` and its name pattern are simple enough that each is written
once, as a predicate.

Besides modelling each side, the model compares the two validators
(module `CrossChecks`):

- Under the single white-space set assumed in "## Left out", every
  e-mail and telephone the client accepts, the server's field validator
  accepts too. A telephone can still be refused by the server
  as a whole, because the server also limits the raw value to 20
  characters and the client does not.
- On names, e-mail and telephone the two sides also disagree, and each
  disagreement is proved on a concrete input or input family.

Modules, in dependency order:

| module | file | models |
|---|---|---|
| `Wrappers` | wrappers.dfy | `Option` and `Result` |
| `Text` | text.dfy | white space, `trim`/`strip`, character removal, `join`/split, decimal numerals |
| `Messages` | messages.dfy | the user-facing messages shared by both sides |
| `Patterns` | patterns.dfy | the e-mail regular expression, which both sides use |
| `Validation` | validation.dfy | validation.js |
| `ValidationExamples` | validation_examples.dfy | worked examples of validation.js |
| `ErrorHandler` | error_handler.dfy | `validation_exception_handler` |
| `ContactModel` | contact_model.dfy | the pydantic `Contact` model and the validation of a request body |
| `ContactStore` | contact_store.dfy | the CRUD endpoints over a map from id to row |
| `ContactForm` | contact_form.dfy | addContact.jsx and editContact.jsx |
| `CrossChecks` | cross_checks.dfy | client against server |

## Model

| member | source | states |
|---|---|---|
| `Text.Trim` | frontend/src/utils/validation.js:7-17 | `trim()` returns a contiguous slice of its input. The slice neither starts nor ends with white space, and it is empty exactly when the input is all white space. |
| `Text.TrimIdempotent` | backend/main.py:61-64 | Stripping an already stripped name changes nothing. |
| `Text.WithoutCounts` | frontend/src/utils/validation.js:48 | A global `replace` with `''` keeps every occurrence of each kept character and removes every occurrence of each removed one. |
| `Text.WithoutAppend` | frontend/src/utils/validation.js:48 | Removing characters works piece by piece over a concatenation, so the order of the kept characters is kept. |
| `Text.WithoutTwice` | backend/main.py:112 | Removing one character class and then another equals removing their union in one pass. |
| `Text.Split` | frontend/src/utils/validation.js:51-53 | The inverse of `join`: the pieces contain no separator, and joining them gives back the text. |
| `Text.SplitJoin` | frontend/src/utils/validation.js:51-53 | Splitting a joined list at ", " gives back the list, provided no element contains ", ". |
| `Text.ReadShowNat` | backend/main.py:22-24 | A list index rendered by the f-string reads back as the same number. |
| `Messages.NameMessagesDistinct` | backend/main.py:61-73 | The four name messages differ pairwise, so a message identifies the check that failed. |
| `Patterns.EmailMatchesPattern` | frontend/src/utils/validation.js:41-44 | The e-mail scanner accepts exactly the strings the pattern matches: a segment without white space or `@`, an `@`, a segment, a literal `.`, and a segment. |
| `Validation.NameRule` | frontend/src/utils/validation.js:7-17 | A missing or blank name is "required". Any other name shorter than 2 characters, counted before trimming, is "too short". Every other name passes. Each case is stated in both directions. |
| `Validation.EmailRule` | frontend/src/utils/validation.js:20-23 | An error is reported exactly when the e-mail is present and does not match the pattern, and the error is the e-mail message. |
| `Validation.PhoneNumberMatchesPattern` | frontend/src/utils/validation.js:47 | The phone scanner accepts exactly the strings of `^[\+]?[1-9][\d]{0,15}$`. |
| `Validation.PhoneRule` | frontend/src/utils/validation.js:25-28 | An error is reported exactly when the telephone is present and, with white space, hyphens and parentheses removed, does not match the phone pattern. |
| `Validation.NotesRule` | frontend/src/utils/validation.js:30-33 | An error is reported exactly when the notes have more than 500 characters. |
| `Validation.FieldRule` | frontend/src/utils/validation.js:6-33 | A reported message is never empty. Company and address are never reported. |
| `Validation.CollectErrorsLookup` | frontend/src/utils/validation.js:4-33 | After all rules have run, each field's entry is exactly its own rule's message on its own value. |
| `Validation.ValidateContact` | frontend/src/utils/validation.js:3-39 | `isValid` holds exactly when the errors object is empty. Its keys are checked fields only, with non-empty messages, and each entry is that field's rule applied to that field's value. |
| `Validation.ValidIffAcceptable` | frontend/src/utils/validation.js:35-38 | `isValid` holds exactly when a pattern-level acceptability holds: names acceptable, e-mail matches, stripped telephone matches, notes at most 500. This is stated without reference to the code. |
| `Validation.OtherEntriesUnchanged` | frontend/src/utils/validation.js:6-33 | Errors accumulate independently: changing one field never changes another field's entry. |
| `Validation.MessagesFor` | frontend/src/utils/validation.js:52 | The messages of the listed fields. The result is empty exactly when no listed field has an entry. It contains every listed field's message and nothing else. |
| `Validation.MessagesForAppend` | frontend/src/utils/validation.js:52 | The messages follow the order of the fields: for a list of fields in two parts, the first part's messages come before the second's. |
| `Validation.OrderedMessagesInOrder` | frontend/src/utils/validation.js:52 | `Object.values` of an errors object gives the first-name message, then last name, e-mail, telephone and notes, each only when that field has an entry. |
| `Validation.ReportedMessages` | frontend/src/utils/validation.js:8-32 | Every reported message is one of the validator's seven fixed messages. |
| `Validation.ValidatorMessageHasNoSeparator` | frontend/src/utils/validation.js:8-32 | No validator message contains ", ". |
| `Validation.FormatEmptyIffValid` | frontend/src/utils/validation.js:51-53 | The formatted text is empty exactly when the draft is valid. |
| `Validation.FormatRoundTrip` | frontend/src/utils/validation.js:51-53 | Splitting the formatted text at ", " gives back the reported messages in insertion order. |
| `ValidationExamples.OnlyFirstNameFails` | frontend/src/utils/validation.js:3-39 | When only the first-name rule fails, the verdict is invalid with exactly one entry. |
| `ValidationExamples.OneLetterNameTooShort` | frontend/src/utils/validation.js:9-10 | "A" is reported as too short. |
| `ValidationExamples.ThreeLetterNameAccepted` | frontend/src/utils/validation.js:14-17 | "Bee" passes the last-name rule. |
| `ValidationExamples.ShortFirstNameExample` | frontend/src/utils/validation.js:3-39 | A draft whose only problem is a one-letter first name gets exactly the "too short" entry. Its empty optional fields produce no entries. |
| `ValidationExamples.FormattedPhoneAccepted` | frontend/src/utils/validation.js:46-49 | "+1 (555) 123-4567" is a valid phone number. |
| `ValidationExamples.ElevenDigitNumber` | frontend/src/utils/validation.js:47 | "+15551234567" matches the phone pattern. |
| `ValidationExamples.LeadingZeroPhoneRefused` | frontend/src/utils/validation.js:46-49 | "0123" is refused. |
| `ValidationExamples.ShortEmailAccepted` | frontend/src/utils/validation.js:41-44 | "a@b.co" is a valid e-mail. |
| `ValidationExamples.NoAtSignRefused` | frontend/src/utils/validation.js:41-44 | Every string without `@` is refused, whatever else it holds. |
| `ValidationExamples.NotesBoundary` | frontend/src/utils/validation.js:31-33 | Notes of 500 characters pass. Notes of 501 characters get the notes message. |
| `ErrorHandler.HandleValidationError` | backend/main.py:18-29 | The reply has status 422 and detail "Validation error", plus one line per error in order. Each line is "field: message". |
| `ErrorHandler.LineRoundTrip` | backend/main.py:22-24 | The field and the message can be read back from a line whenever the field contains no ": ". |
| `ErrorHandler.IndexFieldRoundTrip` | backend/main.py:22 | An error located at a list index is reported under a numeral that reads back as that index. |
| `ContactModel.ValidateName` | backend/main.py:58-94 | A blank name raises "required". Otherwise the stripped name is checked in turn for fewer than 2 characters, more than 50 characters, and forbidden characters, and the first failure's message is raised. Each case is stated in both directions. On success the result is the stripped input, in normal form. |
| `ContactModel.NameFixpoints` | backend/main.py:64-75 | A name validator returns its input unchanged exactly when the input is in normal form. It is idempotent on what it accepts. |
| `ContactModel.ValidateEmail` | backend/main.py:96-105 | `None`, `""` and "NULL" pass through. Any other value passes unchanged exactly when it matches the pattern, or matches once one final newline is removed (Python's `$`). Otherwise the e-mail message is raised. |
| `ContactModel.PythonEmailMatchesPattern` | backend/main.py:101-102 | `re.match` with the e-mail pattern accepts exactly the matches, optionally followed by one newline. |
| `ContactModel.ValidateTelephone` | backend/main.py:107-119 | The null markers pass through. Any other value is accepted exactly when it is 1 to 16 digits once white space, `-`, `(`, `)` and `+` are removed. The value returned is that digit string, not the input. |
| `ContactModel.TelephoneFixpoint` | backend/main.py:107-119 | Validating an accepted telephone again returns it unchanged. |
| `ContactModel.ValidateNotes` | backend/main.py:121-125 | An error is raised exactly for notes over 500 characters. Otherwise the value is returned unchanged. |
| `ContactModel.LengthError` | backend/main.py:50-51 | A `min_length`/`max_length` constraint reports an error exactly when the length is out of range. |
| `ContactModel.OptionalLengthError` | backend/main.py:52-56 | On an optional field, `None` is never reported, and a string is reported exactly when it is over the limit. |
| `ContactModel.ValueErrorMsg` | backend/main.py:58-125 | A message a validator raises is reported as "Value error, " followed by that message, unchanged. |
| `ContactModel.Checked` | backend/main.py:46-56 | A field passes exactly when its length constraint and its validator both pass. The passing value is the validator's. A broken length constraint is reported with its own message and the validator is not consulted. Otherwise a raised message is reported as a value error. |
| `ContactModel.Failure` | backend/main.py:46-56 | A failed field check produces one error entry, located at that field (`body`, then the field's name), carrying the check's message. A passing check produces none. |
| `ContactModel.CheckErrors` | backend/main.py:46-125 | One error slot per body field. Every slot is empty exactly when every field check passes. That slot `i` belongs to field `BodyKeys[i]`'s own check is stated by `CheckErrorsSlots`. |
| `ContactModel.CheckErrorsSlots` | backend/main.py:46-56 | The error slots follow the field declaration order: slot 0 is the first-name check's error, then last name, company, telephone, e-mail, address and notes. |
| `ContactModel.FailuresFromMembers` | backend/main.py:46-125 | An error entry is reported exactly when it is the entry of some field whose check failed: located at that field, carrying that check's message. |
| `ContactModel.Failures` | backend/main.py:46-125 | A body has no error entries exactly when every field check passes. There are at most seven entries, all located at body fields. |
| `ContactModel.FailuresReportChecks` | backend/main.py:46-125 | Field `BodyKeys[i]` has an entry located at it exactly when error slot `i` is filled, and every such entry carries that slot's message. |
| `ContactModel.ParseContact` | backend/main.py:46-125 | A body is accepted exactly when it meets the length limits and the name, telephone and e-mail validators accept it. An accepted body is in normal form: names stripped, telephone cleaned to its digits as its validator returns it, other fields kept. A refused body carries 1 to 7 body-located errors. |
| `ContactModel.RefusalReportsFailedChecks` | backend/main.py:46-125 | A body is refused whenever error slot `i` is filled. The refusal then holds an entry located at field `BodyKeys[i]` with that slot's message, and every entry located there carries that message. The 422 handler turns each entry into a "field: message" line. |
| `ContactModel.FirstNameReported` | backend/main.py:46-125 | When the first name check fails, the body is refused with an entry located at `first_name` carrying that check's message. Every entry located at `first_name` carries the first name check's message. |
| `ContactModel.LastNameReported` | backend/main.py:46-125 | When the last name check fails, the body is refused with an entry located at `last_name` carrying that check's message. Every entry located at `last_name` carries the last name check's message. |
| `ContactModel.CompanyReported` | backend/main.py:46-125 | When the company check fails, the body is refused with an entry located at `company` carrying that check's message. Every entry located at `company` carries the company check's message. |
| `ContactModel.TelephoneReported` | backend/main.py:46-125 | When the telephone check fails, the body is refused with an entry located at `telephone` carrying that check's message. Every entry located at `telephone` carries the telephone check's message. |
| `ContactModel.EmailReported` | backend/main.py:46-125 | When the e-mail check fails, the body is refused with an entry located at `email` carrying that check's message. Every entry located at `email` carries the e-mail check's message. |
| `ContactModel.AddressReported` | backend/main.py:46-125 | When the address check fails, the body is refused with an entry located at `address` carrying that check's message. Every entry located at `address` carries the address check's message. |
| `ContactModel.NotesReported` | backend/main.py:46-125 | When the notes check fails, the body is refused with an entry located at `notes` carrying that check's message. Every entry located at `notes` carries the notes check's message. |
| `ContactModel.NormalIsFixpoint` | backend/main.py:46-125 | A contact in normal form is accepted unchanged. |
| `ContactModel.ParseIdempotent` | backend/main.py:46-125 | Validation returns a body unchanged exactly when it is in normal form, and validating a validated body changes nothing. |
| `ContactStore.RecordRoundTrip` | backend/main.py:174-188 | Storing a body and reading the row back gives the body with the row's id. |
| `ContactStore.TakenIgnoresId` | backend/main.py:162-166 | The duplicate test depends on the names and the e-mail only, never on the body's id. |
| `ContactStore.Refused` | backend/main.py:18-29 | A refused body leaves the table unchanged and is answered with 422. |
| `ContactStore.GetContact` | backend/main.py:147-152 | A row is returned exactly when the id is in the table. It carries that id and the stored fields. |
| `ContactStore.AllContacts` | backend/main.py:141-144 | Every row is listed, and everything listed is a row that `get_contact` returns under its own id. |
| `ContactStore.CreateContact` | backend/main.py:155-188 | A duplicate (first name, last name, e-mail) is answered with 400 and the table is unchanged. Otherwise exactly one row is added under the new id, the other rows are unchanged, and the answer is 201 with the row. |
| `ContactStore.UpdateContact` | backend/main.py:191-233 | A missing id is answered with 404, and another row with the same identity with 400; the table is unchanged in both cases. Otherwise only that row takes the body's fields, and the answer is 200 with the row. |
| `ContactStore.DeleteContact` | backend/main.py:236-251 | A missing id is answered with 404 and the table is unchanged. Otherwise exactly that row is removed and the answer is 200 with the message. |
| `ContactStore.CreateRequest` | backend/main.py:155-158 | An invalid body leaves the table unchanged and gets 422. The answer is 201 exactly when the body is valid and not a duplicate. |
| `ContactStore.UpdateRequest` | backend/main.py:191-233 | An invalid body leaves the table unchanged and gets 422. The answer is 200 exactly when the body is valid, the id exists and no other row has the identity. On 200, row `id` holds the validated body, the ids are the same, and every other row is unchanged. |
| `ContactStore.CreatePreservesValid` | backend/main.py:162-188 | Creating keeps the table free of duplicates and made only of validated rows. |
| `ContactStore.UpdatePreservesValid` | backend/main.py:199-233 | Updating keeps the table free of duplicates and made only of validated rows. |
| `ContactStore.DeletePreservesValid` | backend/main.py:239-251 | Deleting keeps the table free of duplicates and made only of validated rows. |
| `ContactStore.StoredRowsRevalidate` | backend/main.py:155-157 | Every stored row passes the response model's validation unchanged. |
| `ContactStore.CreateThenGet` | backend/main.py:174-188 | A created contact reads back as the validated body under the new id. |
| `ContactStore.CreateTwiceRefused` | backend/main.py:162-172 | Posting the same body a second time is refused with 400 and changes nothing. |
| `ContactStore.CreateThenDelete` | backend/main.py:236-251 | Deleting a contact just created restores the previous table. |
| `ContactStore.DeleteThenGet` | backend/main.py:239-246 | A deleted contact is gone, and deleting it again is answered with 404. |
| `ContactStore.UpdateIgnoresBodyId` | backend/main.py:196-228 | The body's `id` plays no part in an update; the path id decides which row changes. |
| `ContactStore.UpdateThenGet` | backend/main.py:221-233 | After an accepted update, reading row `id` gives the validated body under that id. Reading any other id gives what it gave before. |
| `ContactStore.UpdateIdempotent` | backend/main.py:207-233 | Repeating a successful update changes nothing further and gets the same answer. |
| `ContactForm.NewAddForm` | frontend/src/components/addContact.jsx:10-19 | The add form starts with every field empty and no errors. |
| `ContactForm.NewEditForm` | frontend/src/components/editContact.jsx:7-16 | The edit form starts with the contact's current values and no errors. |
| `ContactForm.ClearFieldError` | frontend/src/components/addContact.jsx:75-83 | A field with a message loses its entry; otherwise nothing changes. Every other entry is kept. |
| `ContactForm.SubmitForm` | frontend/src/components/addContact.jsx:21-50 | The errors object becomes the validator's. A request is sent exactly when the draft is valid, with the field values, to the endpoint of the form's mode. |
| `ContactForm.Step` | frontend/src/components/editContact.jsx:18-160 | Per event: a submit the browser blocks (an empty name in the add form) changes nothing; any other submit runs `handleSubmit`. Typing sets only that field, and the errors object either stays as it was or loses exactly that field's entry. On a clearing input the field's highlight is removed, and other inputs leave the errors alone. Closing hides the panel. A 201 answer to the add form empties the fields. Any other answer and a failure change nothing. Only a submit sends. |
| `ContactForm.Run` | frontend/src/components/addContact.jsx:21-130 | A sequence of events keeps the form's mode, and sends at most one request per event. Every request sent goes to the endpoint of the form's mode with a draft the validator accepts, so no invalid draft ever reaches the server from the form. |
| `ContactForm.ValidNotBlocked` | frontend/src/components/addContact.jsx:107-129 | The browser's `required` check never blocks a draft the validator accepts. |
| `ContactForm.AddRequiredOnlyForBlank` | frontend/src/components/addContact.jsx:104-129 | In the add form the "required" message can appear only for a name made of white space alone, because the browser stops an empty name before `handleSubmit`. |
| `ContactForm.StepPreservesErrors` | frontend/src/components/editContact.jsx:18-82 | One event keeps the errors object made of checked fields and validator messages. Any request sent is to the form's endpoint with a valid draft. |
| `ContactForm.RunPreservesErrors` | frontend/src/components/addContact.jsx:35-50 | Along any sequence of events, no request with an invalid draft ever leaves the form, and the errors object stays well formed. |
| `ContactForm.ErrorsOnlyShrink` | frontend/src/components/editContact.jsx:63-150 | Between submits the errors object only loses entries, never gains or changes one, and nothing is sent. |
| `ContactForm.ValidSubmit` | frontend/src/components/editContact.jsx:32-50 | A valid submit empties the errors object and sends the mode's request with the field values. |
| `ContactForm.AddRoundTrip` | frontend/src/components/addContact.jsx:35-64 | A valid submit followed by a 201 answer sends exactly one POST and returns the add form to its first state. |
| `ContactForm.EditAnswerKeepsForm` | frontend/src/components/editContact.jsx:52-57 | Any answer to the edit form leaves the form as it was. |
| `ContactForm.InvalidSubmitShowsPanel` | frontend/src/components/addContact.jsx:35-40 | An invalid submit that the browser lets through shows the panel with each field's rule message and sends nothing. |
| `ContactForm.OptimisticClear` | frontend/src/components/addContact.jsx:107-130 | Typing into either name input, in either form, hides that input's error for any new value, including one the name rule still refuses. |
| `ContactForm.TelephoneErrorPersists` | frontend/src/components/editContact.jsx:130-136 | In the edit form a telephone error stays on the panel however the telephone is changed. |
| `ContactForm.FormattedErrorsRoundTrip` | frontend/src/utils/validation.js:51-53 | For every errors object the form can hold, the text `formatValidationErrors` makes of it splits back into its messages. |
| `CrossChecks.ServerNameAcceptedByClient` | backend/main.py:58-75 | Every name the server accepts, the client accepts. |
| `CrossChecks.ClientCountsSpaces` | frontend/src/utils/validation.js:7-11 | " a" passes the client, which counts before trimming, and is too short for the server, which counts after stripping. |
| `CrossChecks.ClientIgnoresCharacters` | backend/main.py:72-73 | "R2D2" passes the client, which does not check characters, and is refused by the server. |
| `CrossChecks.ClientEmailAcceptedByServer` | backend/main.py:96-105 | Every e-mail the client lets through, the server returns unchanged. |
| `CrossChecks.TrailingSpaceNotEmail` | frontend/src/utils/validation.js:42 | A string ending in white space never matches the e-mail pattern. |
| `CrossChecks.ServerLooserOnEmail` | backend/main.py:98-102 | The server accepts "NULL" and an address followed by a newline, and the client refuses both. |
| `CrossChecks.CleanPhoneIsStripThenDropPlus` | backend/main.py:112 | The server's clean-up is the client's separator stripping followed by dropping `+`. |
| `CrossChecks.PhoneNumberDigits` | frontend/src/utils/validation.js:47 | A number the client's pattern accepts is, without its `+`, 1 to 16 digits. |
| `CrossChecks.NullNotAPhone` | backend/main.py:109 | "NULL", which the server passes through, is not a telephone the client accepts. |
| `CrossChecks.ClientPhoneAcceptedByServer` | backend/main.py:107-119 | Every telephone the client lets through, the server's telephone validator accepts, and it returns the client's stripped number without its `+`. |
| `CrossChecks.ClientPhoneStored` | backend/main.py:107-119 | When a body whose telephone the client lets through is accepted, the stored telephone is the client's stripped number without its `+`. |
| `CrossChecks.LeadingZeroOnlyServer` | backend/main.py:114 | "0123" is refused by the client and kept by the server. |
| `CrossChecks.LongPhoneRefused` | backend/main.py:53 | A raw telephone over 20 characters is refused by the length limit, whatever its digits. |
| `CrossChecks.PaddedNumberValid` | frontend/src/utils/validation.js:46-49 | A number that matches the phone pattern as it stands, with no separators in it, is still accepted by `isValidPhone` with any run of spaces after it. |
| `CrossChecks.PaddedPhoneOnlyClient` | backend/main.py:53 | A valid number padded past 20 characters passes the client and the server's validator, and is still refused by the server's length limit. |
| `CrossChecks.NotesAgree` | backend/main.py:121-125 | Both sides refuse exactly the notes over 500 characters. The server's refusal carries the length-limit message, so its notes validator's own message is never sent. |

## Left out

- Transport and side effects are not modelled: `fetch`, JSON encoding, `window.location.reload`, `console.log`, the CORS middleware, and the database session (`get_db`, commit, refresh). A request is an output of the form machine and a response is an input event. The endpoints work on a map from id to row.
- The id the database assigns to a new row is a parameter (`newId`), required to be unused.
- The error panel component is not modelled: its rendering and its 5-second auto-close timer are UI and timer concerns. Only "the panel is shown exactly when the errors object is non-empty" and its close button, which empties the errors object, are modelled.
- Character classes are assumptions, not derived. One white-space set serves both JavaScript's `\s`/`trim()` and Python's `\s`/`strip()`, although the two languages' sets differ. `\d` is read as the ASCII digits. `CrossChecks.ClientEmailAcceptedByServer` and `CrossChecks.ClientPhoneAcceptedByServer` depend on this assumption and do not hold for the real sets. JavaScript's `\s` contains U+FEFF, which Python's does not, so the client accepts the telephone "1" U+FEFF "2" and the server refuses it. Python's `\s` contains U+001C to U+001F and U+0085, which JavaScript's does not, so the client accepts the e-mail "a" U+001C "@b.co" and the server refuses it.
- Lengths are counted in code points. JavaScript's `length` counts UTF-16 code units, so strings outside the Basic Multilingual Plane would count differently.
- Some non-ASCII text in backend/main.py is garbled by a character-encoding mix-up, and the model uses the evident original. The Cyrillic range in the name pattern (main.py:72, 91) is taken to be а-я, А-Я, ё and Ё. As written, the class instead holds the reversed range `∞-—` (U+221E down to U+2014), which Python's `re` would refuse to compile; the model departs from the literal text here. The two emoji in the delete messages (main.py:245, 251) are taken to be U+270B (raised hand) and U+1F44C (OK hand).
- The pydantic framework is modelled only as far as it affects the outcome. Its message wording for a broken length limit and its "Value error, " prefix are written out. Declared length limits are checked before a field's validator. Type errors (a missing or non-string name, a non-integer id) are not modelled: `Contact` is a body that already has the right types.
- `ContactStore.GetContact`: a missing id is answered as `None`. The source returns `None` to a response model that does not allow it, so the real answer is a server error; that error is not modelled.
- `ContactStore.AllContacts`: returns a set, so the order of the rows is not modelled.
- `ContactStore.SameIdentity`: a missing e-mail equals a missing e-mail. The source's `== None` filter is read as SQL `IS NULL`.
- Two submits in flight at once, and answers arriving in another order, are not modelled. Events are processed one at a time.
- The add form's source elides every input except the two names. The elided inputs are modelled as not clearing errors, like the edit form's company, telephone, address and notes inputs. They are also modelled as carrying no `required` attribute, so only an empty name blocks the add form's submit.
- The browser's `required` check is modelled as "the value is the empty string". The browser's other constraint checks and its message bubble are not modelled. The edit form's inputs carry no `required` attribute.
- `Validation.FormatValidationErrors`: the messages come out in the fixed order first name, last name, e-mail, telephone, notes. `Object.values` follows insertion order, and every errors object this program holds was filled in that order and only ever loses keys, so the two agree.
- The errors object is keyed by a `Field` value instead of a property-name string. `Validation.KeyInjective` shows the two keyings agree.
- `ContactForm.Step`: a change to a clearing input is stated as "no longer highlighted". The source deletes the key only when its message is truthy; validator messages are never empty, so the two readings agree on every reachable state.

=== FILE: contact_form.dfy ===
/** The add and edit forms of frontend/src/components/addContact.jsx and
    editContact.jsx as a state machine: the field values, the errors
    object behind the error panel, and the requests the form sends. The
    network, the page reload and logging are outside the machine: a
    request is an output, and a response is an input event. */
module ContactForm {
  import opened Wrappers
  import opened Text
  import opened Messages
  import opened Validation

  /** Which form: the add form, or the edit form of contact `contactId`. */
  datatype Mode = Adding | Editing(contactId: int)

  /** A request the form sends: POST /create-contact or
      PATCH /update-contact/{contactId}, each with the field values. */
  datatype Request = Post(body: Draft) | Patch(contactId: int, body: Draft)

  /** The component state that matters: the field values and the errors
      object. */
  datatype Form = Form(mode: Mode, fields: Draft, errors: Errors)

  /** What can happen to a form: the user submits, types `value` into the
      input of `field`, or closes the error panel; or the request sent
      earlier is answered with `status`, or fails. */
  datatype Event =
    | Submit
    | Change(field: Field, value: string)
    | ClosePanel
    | Respond(status: int)
    | Fail

  /** A form after one event, and the request the event sent, if any. */
  datatype Transition = Transition(form: Form, request: Option<Request>)

  /** The draft every field of which is the empty string. */
  const EmptyDraft: Draft := Draft(Some(""), Some(""), Some(""), Some(""), Some(""), Some(""), Some(""))

  /** The add form as first shown: empty fields and no errors. */
  function NewAddForm(): (r: Form)
    ensures r.mode == Adding && r.errors == map[]
    ensures forall f :: Get(r.fields, f) == Some("")
  {
    Form(Adding, EmptyDraft, map[])
  }

  /** The edit form as first shown: the contact's current values, which
      may be missing, and no errors. */
  function NewEditForm(contactId: int, current: Draft): (r: Form)
    ensures r.mode == Editing(contactId) && r.fields == current && r.errors == map[]
  {
    Form(Editing(contactId), current, map[])
  }

  /** The error panel is shown exactly when the errors object has a key. */
  predicate PanelShown(form: Form) {
    |form.errors| > 0
  }

  /** The inputs whose `onChange` clears their field's error: both names
      in either form, and the e-mail in the edit form. */
  predicate ClearsOnChange(mode: Mode, f: Field) {
    f == FirstName || f == LastName || (mode.Editing? && f == Email)
  }

  /** An input is drawn in red exactly when it is one of the clearing
      inputs and its field has a non-empty message. */
  predicate Highlighted(form: Form, f: Field) {
    ClearsOnChange(form.mode, f) && f in form.errors && form.errors[f] != ""
  }

  /** `clearFieldError`: a field with a non-empty message loses its entry;
      every other entry stays as it was. */
  function ClearFieldError(errors: Errors, f: Field): (r: Errors)
    ensures f !in r || (f in errors && errors[f] == "" && r == errors)
    ensures forall g :: g != f ==> Lookup(r, g) == Lookup(errors, g)
    ensures r.Keys <= errors.Keys
  {
    if f in errors && errors[f] != "" then errors - {f} else errors
  }

  /** The request a submit of `fields` sends from a form in `mode`. */
  function RequestFor(mode: Mode, fields: Draft): Request {
    match mode
    case Adding => Post(fields)
    case Editing(id) => Patch(id, fields)
  }

  /** A request goes to the endpoint of the form's mode. */
  predicate Matches(mode: Mode, request: Request) {
    match mode
    case Adding => request.Post?
    case Editing(id) => request.Patch? && request.contactId == id
  }

  /** `handleSubmit` up to the request: the fields are validated; when
      they are invalid the errors object becomes the validator's and
      nothing is sent; otherwise the errors object is emptied and the
      request is sent. */
  function SubmitForm(form: Form): (r: Transition)
    ensures r.form.errors == ValidateContact(form.fields).errors
    ensures r.form.mode == form.mode && r.form.fields == form.fields
    ensures r.request.Some? <==> ValidateContact(form.fields).isValid
    ensures r.request.Some? ==> r.request.value.body == form.fields && Matches(form.mode, r.request.value)
  {
    var verdict := ValidateContact(form.fields);
    if !verdict.isValid then Transition(form.(errors := verdict.errors), None)
    else Transition(form.(errors := map[]), Some(RequestFor(form.mode, form.fields)))
  }

  /** The add form's name inputs carry the HTML `required` attribute, so
      the browser refuses to submit while either of them is empty and
      `handleSubmit` never runs. The edit form's inputs do not. */
  predicate BrowserBlocks(form: Form) {
    form.mode.Adding? && (!Present(form.fields.first_name) || !Present(form.fields.last_name))
  }

  /** One event. A submit the browser lets through runs `handleSubmit`;
      one it blocks changes nothing. Typing sets the field and, on a clearing input, clears
      its error. Closing the panel empties the errors object. A 201 answer
      to the add form empties every field; every other answer, and a
      failed request, only reaches the console. */
  function Step(form: Form, e: Event): (r: Transition)
    ensures r.form.mode == form.mode
    ensures e.Submit? && !BrowserBlocks(form) ==> r == SubmitForm(form)
    ensures e.Submit? && BrowserBlocks(form) ==> r == Transition(form, None)
    ensures !e.Submit? ==> r.request.None?
    ensures e.Change? ==> Get(r.form.fields, e.field) == Some(e.value)
    ensures e.Change? ==> forall g :: g != e.field ==> Get(r.form.fields, g) == Get(form.fields, g)
    ensures e.Change? && ClearsOnChange(form.mode, e.field) ==> !Highlighted(r.form, e.field)
    ensures e.Change? ==> r.form.errors == form.errors || r.form.errors == form.errors - {e.field}
    ensures e.Change? && !ClearsOnChange(form.mode, e.field) ==> r.form.errors == form.errors
    ensures e.ClosePanel? ==> !PanelShown(r.form) && r.form.fields == form.fields
    ensures e.Respond? && e.status == 201 && form.mode.Adding? ==> r.form == NewAddForm().(errors := form.errors)
    ensures (e.Fail? || (e.Respond? && !(e.status == 201 && form.mode.Adding?))) ==> r.form == form
  {
    match e
    case Submit => if BrowserBlocks(form) then Transition(form, None) else SubmitForm(form)
    case Change(f, v) =>
      var errors := if ClearsOnChange(form.mode, f) then ClearFieldError(form.errors, f) else form.errors;
      Transition(Form(form.mode, With(form.fields, f, Some(v)), errors), None)
    case ClosePanel => Transition(form.(errors := map[]), None)
    case Respond(status) =>
      if status == 201 && form.mode.Adding? then Transition(form.(fields := EmptyDraft), None)
      else Transition(form, None)
    case Fail => Transition(form, None)
  }

  /** The requests of one transition. */
  function Sent(t: Transition): seq<Request> {
    if t.request.Some? then [t.request.value] else []
  }

  /** A sequence of events, from the first; the requests in the order they
      were sent. */
  function Run(form: Form, events: seq<Event>): (r: (Form, seq<Request>))
    ensures r.0.mode == form.mode
    ensures |r.1| <= |events|
    ensures forall i :: 0 <= i < |r.1| ==> Allowed(form.mode, r.1[i])
    decreases |events|
  {
    if |events| == 0 then (form, [])
    else
      var t := Step(form, events[0]);
      var rest := Run(t.form, events[1..]);
      (rest.0, Sent(t) + rest.1)
  }

  // ---------------------------------------------------------------------
  // Invariants
  // ---------------------------------------------------------------------

  /** The errors object only ever holds checked fields with one of the
      validator's messages. */
  predicate ErrorsWellFormed(errors: Errors) {
    forall f :: f in errors ==> f in CheckedFields && IsValidatorMessage(errors[f])
  }

  /** A request the form may send: to the endpoint of its mode, with field
      values the validator accepts. */
  predicate Allowed(mode: Mode, request: Request) {
    Matches(mode, request) && ValidateContact(request.body).isValid
  }

  lemma StepPreservesErrors(form: Form, e: Event)
    requires ErrorsWellFormed(form.errors)
    ensures ErrorsWellFormed(Step(form, e).form.errors)
    ensures Step(form, e).request.Some? ==> Allowed(form.mode, Step(form, e).request.value)
  {
    if e.Submit? {
      var errors := ValidateContact(form.fields).errors;
      forall f | f in errors ensures f in CheckedFields && IsValidatorMessage(errors[f]) {
        ReportedMessages(form.fields, f);
      }
    }
  }

  /** Along any sequence of events the errors object stays well formed,
      and every request sent goes to the form's endpoint with a draft the
      validator accepts: no invalid draft ever leaves the form. */
  lemma {:induction false} RunPreservesErrors(form: Form, events: seq<Event>)
    requires ErrorsWellFormed(form.errors)
    ensures ErrorsWellFormed(Run(form, events).0.errors)
    ensures forall i :: 0 <= i < |Run(form, events).1| ==> Allowed(form.mode, Run(form, events).1[i])
    decreases |events|
  {
    if |events| > 0 {
      var t := Step(form, events[0]);
      StepPreservesErrors(form, events[0]);
      RunPreservesErrors(t.form, events[1..]);
    }
  }

  /** Between two submits the errors object only loses entries: typing,
      closing the panel and answers never add one or change a message. */
  lemma {:induction false} ErrorsOnlyShrink(form: Form, events: seq<Event>)
    requires forall i :: 0 <= i < |events| ==> !events[i].Submit?
    ensures forall f :: f in Run(form, events).0.errors ==>
              f in form.errors && Run(form, events).0.errors[f] == form.errors[f]
    ensures Run(form, events).1 == []
    decreases |events|
  {
    if |events| > 0 {
      var t := Step(form, events[0]);
      assert forall f :: f in t.form.errors ==> f in form.errors && t.form.errors[f] == form.errors[f] by {
        if events[0].Change? && ClearsOnChange(form.mode, events[0].field) {
          assert forall g :: g != events[0].field ==> Lookup(t.form.errors, g) == Lookup(form.errors, g);
        }
      }
      ErrorsOnlyShrink(t.form, events[1..]);
    }
  }

  // ---------------------------------------------------------------------
  // Behaviour
  // ---------------------------------------------------------------------

  /** A valid submit empties the errors object and sends the request of
      the form's mode with the field values. */
  lemma ValidSubmit(form: Form)
    requires ValidateContact(form.fields).isValid
    ensures Step(form, Submit) == Transition(form.(errors := map[]), Some(RequestFor(form.mode, form.fields)))
  {
    ValidNotBlocked(form);
  }

  /** The browser never blocks a draft the validator accepts: both names
      are then at least two characters long. */
  lemma ValidNotBlocked(form: Form)
    requires ValidateContact(form.fields).isValid
    ensures !BrowserBlocks(form)
  {
    var errors := ValidateContact(form.fields).errors;
    assert Lookup(errors, FirstName) == NameRule(form.fields.first_name, First);
    assert Lookup(errors, LastName) == NameRule(form.fields.last_name, Last);
  }

  /** In the add form the "required" message reaches the panel only for a
      name made of white space alone: an empty name never gets past the
      browser. */
  lemma AddRequiredOnlyForBlank(form: Form, f: Field)
    requires form.mode.Adding? && (f == FirstName || f == LastName)
    requires f !in form.errors
    requires Lookup(Step(form, Submit).form.errors, f) == Some(NameRequired(if f == FirstName then First else Last))
    ensures Present(Get(form.fields, f)) && AllWhitespace(Get(form.fields, f).value)
  {
    var name := if f == FirstName then First else Last;
    if !BrowserBlocks(form) {
      assert Lookup(ValidateContact(form.fields).errors, f) == NameRule(Get(form.fields, f), name);
    }
  }

  /** A run starting with `e`: the step, then the rest. */
  lemma RunCons(form: Form, e: Event, rest: seq<Event>)
    ensures Run(form, [e] + rest)
            == (Run(Step(form, e).form, rest).0, Sent(Step(form, e)) + Run(Step(form, e).form, rest).1)
  {
    assert ([e] + rest)[1..] == rest;
  }

  /** The add form's round trip: a valid submit sends one POST with the
      field values and hides the panel, and the 201 answer brings the form
      back to its first state. */
  lemma AddRoundTrip(fields: Draft, errors: Errors, events: seq<Event>)
    requires ValidateContact(fields).isValid
    requires events == [Submit, Respond(201)]
    ensures Run(Form(Adding, fields, errors), events) == (NewAddForm(), [Post(fields)])
  {
    var start := Form(Adding, fields, errors);
    ValidSubmit(start);
    var t := Step(start, Submit);
    var u := Step(t.form, Respond(201));
    assert u.form == NewAddForm();
    assert Sent(t) == [Post(fields)];
    assert Sent(u) == [];
    var tail := Run(u.form, []);
    assert tail == (NewAddForm(), []);
    RunCons(t.form, Respond(201), []);
    assert [Respond(201)] + [] == [Respond(201)];
    var mid := Run(t.form, [Respond(201)]);
    assert mid == (NewAddForm(), []);
    RunCons(start, Submit, [Respond(201)]);
    assert [Submit] + [Respond(201)] == events;
    assert Run(start, events) == (mid.0, Sent(t) + mid.1);
    assert Sent(t) + mid.1 == [Post(fields)];
    assert Run(start, events) == (NewAddForm(), [Post(fields)]);
  }

  /** Any answer to an edit, 200 or not, leaves the form exactly as the
      submit left it. */
  lemma EditAnswerKeepsForm(form: Form, status: int)
    requires form.mode.Editing?
    ensures Step(form, Respond(status)).form == form
  {
  }

  /** An invalid submit shows the panel with the validator's messages and
      sends nothing. */
  lemma InvalidSubmitShowsPanel(form: Form)
    requires !ValidateContact(form.fields).isValid && !BrowserBlocks(form)
    ensures PanelShown(Step(form, Submit).form)
    ensures Step(form, Submit).request.None?
    ensures forall f :: Lookup(Step(form, Submit).form.errors, f) == FieldRule(f, Get(form.fields, f))
  {
  }

  /** Clearing is optimistic: typing into a name input hides its error
      even when the new value still breaks the name rule, so the field
      only shows red again at the next submit. */
  lemma OptimisticClear(form: Form, f: Field, v: string)
    requires f == FirstName || f == LastName
    requires Highlighted(form, f)
    requires NameRule(Some(v), if f == FirstName then First else Last).Some?
    ensures !Highlighted(Step(form, Change(f, v)).form, f)
    ensures Lookup(ValidateContact(Step(form, Change(f, v)).form.fields).errors, f).Some?
  {
    var g := Step(form, Change(f, v)).form;
    assert Get(g.fields, f) == Some(v);
  }

  /** An input without the clearing handler keeps its error while the user
      corrects it: in the edit form a telephone error stays on the panel
      after any change to the telephone. */
  lemma TelephoneErrorPersists(form: Form, v: string)
    requires form.mode.Editing? && Telephone in form.errors
    ensures var g := Step(form, Change(Telephone, v)).form;
            Telephone in g.errors && g.errors[Telephone] == form.errors[Telephone] && PanelShown(g)
  {
  }

  /** `formatValidationErrors` applied to any errors object the form can
      hold gives a text that splits back into that object's messages, in
      field order. */
  lemma FormattedErrorsRoundTrip(errors: Errors)
    requires ErrorsWellFormed(errors) && errors != map[]
    ensures Split(FormatValidationErrors(errors), ", ") == OrderedMessages(errors)
  {
    var ms := OrderedMessages(errors);
    var f :| f in errors;
    assert errors[f] in ms;
    forall i | 0 <= i < |ms|
      ensures !Contains(ms[i], ", ")
    {
      assert ms[i] in ms;
      var g :| g in CheckedFields && g in errors && errors[g] == ms[i];
      ValidatorMessageHasNoSeparator(ms[i]);
    }
    SplitJoin(ms, ", ");
  }
}

=== FILE: contact_model.dfy ===
/** The server-side `Contact` model of backend/main.py: its field validators
    (`validate_first_name`, `validate_last_name`, `validate_email`,
    `validate_telephone`, `validate_notes`) and the validation of a whole
    request body. */
module ContactModel {
  import opened Wrappers
  import opened Text
  import opened Messages
  import opened Patterns
  import opened ErrorHandler

  /** A request body after type checking: the two names are strings, the
      other five fields may be `None`, and the body may carry an `id`. */
  datatype Contact = Contact(
    id: Option<int>,
    first_name: string,
    last_name: string,
    company: Option<string>,
    telephone: Option<string>,
    email: Option<string>,
    address: Option<string>,
    notes: Option<string>)

  // ---------------------------------------------------------------------
  // Names
  // ---------------------------------------------------------------------

  const MinNameLength: nat := 2
  const MaxNameLength: nat := 50

  predicate IsAsciiLetter(c: char) {
    'a' <= c <= 'z' || 'A' <= c <= 'Z'
  }

  /** The Cyrillic letters а-я, А-Я, ё and Ё. */
  predicate IsCyrillicLetter(c: char) {
    || ('\U{0430}' <= c <= '\U{044F}')
    || ('\U{0410}' <= c <= '\U{042F}')
    || c == '\U{0451}' || c == '\U{0401}'
  }

  /** One character of the name class: a Latin or Cyrillic letter, white
      space, or a hyphen. */
  predicate IsNameChar(c: char) {
    IsAsciiLetter(c) || IsCyrillicLetter(c) || IsWhitespace(c) || c == '-'
  }

  /** The name pattern `^[...]+$`. It is applied to a stripped value, which
      never ends in a newline, so Python's `$` adds nothing here. */
  predicate IsNameText(s: string) {
    |s| > 0 && forall i :: 0 <= i < |s| ==> IsNameChar(s[i])
  }

  /** The normal form of an accepted name: stripped, 2 to 50 characters,
      and made of name characters only. */
  predicate IsNormalName(s: string) {
    IsTrimmed(s) && MinNameLength <= |s| <= MaxNameLength && IsNameText(s)
  }

  /** `validate_first_name` and `validate_last_name`. A blank name is
      required; otherwise the stripped name is checked for length at least
      2, then length at most 50, then its characters, and the first failing
      check's message is raised. On success the stripped name is returned:
      `v` with white space cut from both ends, in normal form. */
  function ValidateName(v: string, name: NameLabel): (r: Result<string, string>)
    ensures r == Err(NameRequired(name)) <==> AllWhitespace(v)
    ensures r == Err(NameTooShort(name)) <==> !AllWhitespace(v) && |Trim(v)| < MinNameLength
    ensures r == Err(NameTooLong(name)) <==> |Trim(v)| > MaxNameLength
    ensures r == Err(NameBadCharacters(name))
            <==> MinNameLength <= |Trim(v)| <= MaxNameLength && !IsNameText(Trim(v))
    ensures r.Ok? <==> && !AllWhitespace(v)
                       && MinNameLength <= |Trim(v)| <= MaxNameLength && IsNameText(Trim(v))
    ensures r.Ok? ==> IsNormalName(r.value) && r.value == Trim(v)
  {
    NameMessagesDistinct(name);
    if v == "" || Trim(v) == "" then Err(NameRequired(name))
    else
      var t := Trim(v);
      if |t| < MinNameLength then Err(NameTooShort(name))
      else if |t| > MaxNameLength then Err(NameTooLong(name))
      else if !IsNameText(t) then Err(NameBadCharacters(name))
      else Ok(t)
  }

  function ValidateFirstName(v: string): Result<string, string> {
    ValidateName(v, First)
  }

  function ValidateLastName(v: string): Result<string, string> {
    ValidateName(v, Last)
  }

  /** The names a name validator returns unchanged are exactly the names in
      normal form, and every accepted name is turned into one of them. */
  lemma {:induction false} NameFixpoints(v: string, name: NameLabel)
    ensures ValidateName(v, name) == Ok(v) <==> IsNormalName(v)
    ensures ValidateName(v, name).Ok? ==>
              ValidateName(ValidateName(v, name).value, name) == ValidateName(v, name)
  {
    if IsNormalName(v) {
      TrimOfTrimmed(v);
      assert !AllWhitespace(v) by {
        assert !IsWhitespace(v[0]);
      }
    }
    var r := ValidateName(v, name);
    if r.Ok? {
      TrimOfTrimmed(r.value);
      assert !AllWhitespace(r.value) by {
        assert !IsWhitespace(r.value[0]);
      }
    }
  }

  // ---------------------------------------------------------------------
  // Optional fields
  // ---------------------------------------------------------------------

  /** The values `validate_email` and `validate_telephone` pass through
      without looking at them: `None`, the empty string and "NULL". */
  predicate IsNullMarker(v: Option<string>) {
    v.None? || v.value == "" || v.value == "NULL"
  }

  /** `re.match` with the e-mail pattern. Python's `$` also matches just
      before a final newline, so a value that is a match followed by "\n"
      is accepted as well. */
  predicate PythonEmailMatch(s: string) {
    IsEmail(s) || (|s| > 0 && s[|s| - 1] == '\n' && IsEmail(s[..|s| - 1]))
  }

  /** `validate_email`: the null markers and every value the e-mail pattern
      matches (allowing one trailing newline) are returned unchanged; any
      other value raises. */
  function ValidateEmail(v: Option<string>): (r: Result<Option<string>, string>)
    ensures r.Ok? ==> r.value == v
    ensures r.Err? ==> r.error == InvalidEmail
    ensures r.Err? <==> && !IsNullMarker(v)
                        && !MatchesEmailPattern(v.value)
                        && !(|v.value| > 0 && v.value[|v.value| - 1] == '\n'
                             && MatchesEmailPattern(v.value[..|v.value| - 1]))
  {
    if IsNullMarker(v) then Ok(v)
    else
      PythonEmailMatchesPattern(v.value);
      if PythonEmailMatch(v.value) then Ok(v) else Err(InvalidEmail)
  }

  lemma PythonEmailMatchesPattern(s: string)
    ensures PythonEmailMatch(s) <==>
              || MatchesEmailPattern(s)
              || (|s| > 0 && s[|s| - 1] == '\n' && MatchesEmailPattern(s[..|s| - 1]))
  {
    EmailMatchesPattern(s);
    if |s| > 0 {
      EmailMatchesPattern(s[..|s| - 1]);
    }
  }

  /** `[\s\-\(\)\+]`: the characters `validate_telephone` removes. */
  predicate IsPhoneJunk(c: char) {
    IsWhitespace(c) || c == '-' || c == '(' || c == ')' || c == '+'
  }

  function CleanPhone(s: string): string {
    Without(s, IsPhoneJunk)
  }

  const MaxPhoneDigits: nat := 16

  /** `validate_telephone`: the null markers are returned unchanged. Any
      other value loses its white space, hyphens, parentheses and plus
      signs; it is accepted when what is left is 1 to 16 digits, and then
      that digit string, not the input, is returned. */
  function ValidateTelephone(v: Option<string>): (r: Result<Option<string>, string>)
    ensures IsNullMarker(v) ==> r == Ok(v)
    ensures r.Err? ==> r.error == InvalidPhone
    ensures !IsNullMarker(v) && r.Ok? ==>
              && r.value.Some? && 1 <= |r.value.value| <= MaxPhoneDigits && AllDigits(r.value.value)
              && r.value.value == CleanPhone(v.value)
    ensures !IsNullMarker(v) ==>
              (r.Ok? <==> 1 <= |CleanPhone(v.value)| <= MaxPhoneDigits && AllDigits(CleanPhone(v.value)))
  {
    if IsNullMarker(v) then Ok(v)
    else
      var cleaned := CleanPhone(v.value);
      if 1 <= |cleaned| <= MaxPhoneDigits && AllDigits(cleaned) then Ok(Some(cleaned))
      else Err(InvalidPhone)
  }

  /** `validate_notes`: raises exactly for notes longer than 500 characters;
      otherwise returns the value unchanged. */
  function ValidateNotes(v: Option<string>): (r: Result<Option<string>, string>)
    ensures r.Err? <==> v.Some? && |v.value| > MaxNotesLength
    ensures r.Err? ==> r.error == NotesTooLong
    ensures r.Ok? ==> r.value == v
  {
    if v.Some? && v.value != "" && |v.value| > MaxNotesLength then Err(NotesTooLong) else Ok(v)
  }

  /** A telephone the validator accepted is accepted again unchanged. */
  lemma {:induction false} TelephoneFixpoint(v: Option<string>)
    requires ValidateTelephone(v).Ok?
    ensures ValidateTelephone(ValidateTelephone(v).value) == ValidateTelephone(v)
  {
    if !IsNullMarker(v) {
      var d := ValidateTelephone(v).value.value;
      assert d[0] != 'N';
      WithoutKeepsAll(d, IsPhoneJunk);
    }
  }

  // ---------------------------------------------------------------------
  // A whole request body
  // ---------------------------------------------------------------------

  /** The length constraints declared on the fields, which are checked
      before the field's validator runs. */
  const NameMaxLength: nat := 100
  const CompanyMaxLength: nat := 100
  const TelephoneMaxLength: nat := 20
  const AddressMaxLength: nat := 200
  const NotesMaxLength: nat := 500

  /** The messages of a failed length constraint. */
  const TooShortForOne: string := "String should have at least 1 character"

  function TooLongFor(n: nat): string {
    "String should have at most " + ShowNat(n) + " characters"
  }

  /** The message of a length constraint `min_length`/`max_length` that `v`
      breaks, if any. */
  function LengthError(v: string, minLength: nat, maxLength: nat): (r: Option<string>)
    requires minLength <= 1
    ensures r.None? <==> minLength <= |v| <= maxLength
  {
    if |v| < minLength then Some(TooShortForOne)
    else if |v| > maxLength then Some(TooLongFor(maxLength))
    else None
  }

  /** The same for an optional field: `None` is not checked. */
  function OptionalLengthError(v: Option<string>, maxLength: nat): (r: Option<string>)
    ensures r.None? <==> v.None? || |v.value| <= maxLength
  {
    if v.None? then None else LengthError(v.value, 0, maxLength)
  }

  /** How a `ValueError` raised by a validator is worded in the error. */
  function ValueErrorMsg(msg: string): (r: string)
    ensures |r| == |ValueErrorPrefix| + |msg|
    ensures r[..|ValueErrorPrefix|] == ValueErrorPrefix && r[|ValueErrorPrefix|..] == msg
  {
    ValueErrorPrefix + msg
  }

  const ValueErrorPrefix: string := "Value error, "

  /** One field's outcome: a broken length constraint is reported and the
      validator is not consulted; otherwise the validator's result, with a
      raised message worded as a value error. */
  function Checked<T>(lengthError: Option<string>, validated: Result<T, string>): (r: Result<T, string>)
    ensures r.Ok? <==> lengthError.None? && validated.Ok?
    ensures r.Ok? ==> r.value == validated.value
    ensures lengthError.Some? ==> r == Err(lengthError.value)
    ensures lengthError.None? && validated.Err? ==> r == Err(ValueErrorMsg(validated.error))
  {
    if lengthError.Some? then Err(lengthError.value)
    else if validated.Err? then Err(ValueErrorMsg(validated.error))
    else Ok(validated.value)
  }

  function CheckFirstName(c: Contact): Result<string, string> {
    Checked(LengthError(c.first_name, 1, NameMaxLength), ValidateFirstName(c.first_name))
  }

  function CheckLastName(c: Contact): Result<string, string> {
    Checked(LengthError(c.last_name, 1, NameMaxLength), ValidateLastName(c.last_name))
  }

  function CheckCompany(c: Contact): Result<Option<string>, string> {
    Checked(OptionalLengthError(c.company, CompanyMaxLength), Ok(c.company))
  }

  function CheckTelephone(c: Contact): Result<Option<string>, string> {
    Checked(OptionalLengthError(c.telephone, TelephoneMaxLength), ValidateTelephone(c.telephone))
  }

  function CheckEmail(c: Contact): Result<Option<string>, string> {
    Checked(None, ValidateEmail(c.email))
  }

  function CheckAddress(c: Contact): Result<Option<string>, string> {
    Checked(OptionalLengthError(c.address, AddressMaxLength), Ok(c.address))
  }

  function CheckNotes(c: Contact): Result<Option<string>, string> {
    Checked(OptionalLengthError(c.notes, NotesMaxLength), ValidateNotes(c.notes))
  }

  /** The body fields after `id`, in declaration order. */
  const BodyKeys: seq<string> :=
    ["first_name", "last_name", "company", "telephone", "email", "address", "notes"]

  /** Where an error in body field `key` is reported. */
  function BodyLoc(key: string): seq<LocItem> {
    [Name("body"), Name(key)]
  }

  /** An error entry as the body validation reports it: located at a field
      of the request body. */
  predicate IsBodyError(e: ErrorEntry) {
    |e.loc| == 2 && e.loc[0] == Name("body") && FieldOf(e.loc) in BodyKeys
  }

  /** The error of a failed check, if any. */
  function ErrorOf<T>(r: Result<T, string>): (e: Option<string>)
    ensures e.None? <==> r.Ok?
    ensures e.Some? ==> e.value == r.error
  {
    if r.Err? then Some(r.error) else None
  }

  /** The error entry for field `BodyKeys[i]`, if its check failed. */
  function Failure(i: nat, err: Option<string>): (es: seq<ErrorEntry>)
    requires i < |BodyKeys|
    ensures |es| == 0 <==> err.None?
    ensures |es| <= 1
    ensures forall e :: e in es ==> IsBodyError(e) && e.loc == BodyLoc(BodyKeys[i]) && e.msg == err.value
  {
    var key := BodyKeys[i];
    assert FieldOf(BodyLoc(key)) == key;
    if err.Some? then [ErrorEntry(BodyLoc(key), err.value)] else []
  }

  /** Every field check passes. */
  predicate AllChecksPass(c: Contact) {
    && CheckFirstName(c).Ok? && CheckLastName(c).Ok? && CheckCompany(c).Ok?
    && CheckTelephone(c).Ok? && CheckEmail(c).Ok? && CheckAddress(c).Ok? && CheckNotes(c).Ok?
  }

  /** Each field check's error, in field declaration order: entry `i`
      belongs to field `BodyKeys[i]`. */
  function CheckErrors(c: Contact): (errs: seq<Option<string>>)
    ensures |errs| == |BodyKeys|
    ensures AllChecksPass(c) <==> forall i :: 0 <= i < |errs| ==> errs[i].None?
  {
    ErrorsInOrder(CheckFirstName(c), CheckLastName(c), CheckCompany(c), CheckTelephone(c),
                  CheckEmail(c), CheckAddress(c), CheckNotes(c))
  }

  /** The errors of seven checks, as a list: it has no error exactly when
      every check passed. */
  function ErrorsInOrder<A, B>(r0: Result<A, string>, r1: Result<A, string>, r2: Result<B, string>,
                               r3: Result<B, string>, r4: Result<B, string>, r5: Result<B, string>,
                               r6: Result<B, string>): (errs: seq<Option<string>>)
    ensures |errs| == 7
    ensures (forall i :: 0 <= i < |errs| ==> errs[i].None?) <==>
              r0.Ok? && r1.Ok? && r2.Ok? && r3.Ok? && r4.Ok? && r5.Ok? && r6.Ok?
  {
    var errs := [ErrorOf(r0), ErrorOf(r1), ErrorOf(r2), ErrorOf(r3), ErrorOf(r4), ErrorOf(r5), ErrorOf(r6)];
    assert errs[0] == ErrorOf(r0) && errs[1] == ErrorOf(r1) && errs[2] == ErrorOf(r2) && errs[3] == ErrorOf(r3);
    assert errs[4] == ErrorOf(r4) && errs[5] == ErrorOf(r5) && errs[6] == ErrorOf(r6);
    errs
  }

  /** Slot `k` of `ErrorsInOrder` is the error of check `k`. */
  lemma ErrorsInOrderSlots<A, B>(r0: Result<A, string>, r1: Result<A, string>, r2: Result<B, string>,
                                 r3: Result<B, string>, r4: Result<B, string>, r5: Result<B, string>,
                                 r6: Result<B, string>)
    ensures var errs := ErrorsInOrder(r0, r1, r2, r3, r4, r5, r6);
            && errs[0] == ErrorOf(r0) && errs[1] == ErrorOf(r1) && errs[2] == ErrorOf(r2)
            && errs[3] == ErrorOf(r3) && errs[4] == ErrorOf(r4) && errs[5] == ErrorOf(r5)
            && errs[6] == ErrorOf(r6)
  {
  }

  /** Slot `i` of `CheckErrors` holds the error of field `BodyKeys[i]`'s own
      check. */
  lemma CheckErrorsSlots(c: Contact)
    ensures && CheckError(c, 0) == ErrorOf(CheckFirstName(c)) && CheckError(c, 1) == ErrorOf(CheckLastName(c))
            && CheckError(c, 2) == ErrorOf(CheckCompany(c)) && CheckError(c, 3) == ErrorOf(CheckTelephone(c))
            && CheckError(c, 4) == ErrorOf(CheckEmail(c)) && CheckError(c, 5) == ErrorOf(CheckAddress(c))
            && CheckError(c, 6) == ErrorOf(CheckNotes(c))
  {
    ErrorsInOrderSlots(CheckFirstName(c), CheckLastName(c), CheckCompany(c), CheckTelephone(c),
                       CheckEmail(c), CheckAddress(c), CheckNotes(c));
  }

  /** The entries for fields `i` onwards, in field order. */
  function FailuresFrom(errs: seq<Option<string>>, i: nat): seq<ErrorEntry>
    requires i <= |errs| == |BodyKeys|
    decreases |errs| - i
  {
    if i == |errs| then [] else Failure(i, errs[i]) + FailuresFrom(errs, i + 1)
  }

  /** An entry is reported for fields `i` onwards exactly when it is the
      entry of one of those fields whose check failed. */
  lemma {:induction false} FailuresFromMembers(errs: seq<Option<string>>, i: nat, e: ErrorEntry)
    requires i <= |errs| == |BodyKeys|
    ensures e in FailuresFrom(errs, i) <==>
              exists j :: i <= j < |errs| && errs[j].Some? && e == ErrorEntry(BodyLoc(BodyKeys[j]), errs[j].value)
    decreases |errs| - i
  {
    if i < |errs| {
      FailuresFromMembers(errs, i + 1, e);
    }
  }

  lemma {:induction false} FailuresFromShape(errs: seq<Option<string>>, i: nat)
    requires i <= |errs| == |BodyKeys|
    ensures |FailuresFrom(errs, i)| <= |errs| - i
    ensures |FailuresFrom(errs, i)| == 0 <==> forall j :: i <= j < |errs| ==> errs[j].None?
    ensures forall e :: e in FailuresFrom(errs, i) ==> IsBodyError(e)
    decreases |errs| - i
  {
    if i < |errs| {
      FailuresFromShape(errs, i + 1);
    }
  }

  /** Every field's error for a body, in field declaration order. */
  function Failures(c: Contact): (es: seq<ErrorEntry>)
    ensures |es| == 0 <==> AllChecksPass(c)
    ensures |es| <= |BodyKeys|
    ensures forall e :: e in es ==> IsBodyError(e)
  {
    var errs := CheckErrors(c);
    FailuresFromShape(errs, 0);
    assert AllChecksPass(c) <==> forall i :: 0 <= i < |errs| ==> errs[i].None?;
    FailuresFrom(errs, 0)
  }

  /** The error of the check of field `BodyKeys[i]`, if it failed. */
  function CheckError(c: Contact, i: nat): Option<string>
    requires i < |BodyKeys|
  {
    CheckErrors(c)[i]
  }

  /** A refused body reports exactly the checks that failed: field
      `BodyKeys[i]` has an entry exactly when its check failed, and the
      entry carries that check's message. */
  lemma FailuresReportChecks(c: Contact, i: nat)
    requires i < |BodyKeys|
    ensures CheckError(c, i).Some? ==> ErrorEntry(BodyLoc(BodyKeys[i]), CheckError(c, i).value) in Failures(c)
    ensures forall e :: e in Failures(c) && e.loc == BodyLoc(BodyKeys[i]) ==> CheckError(c, i) == Some(e.msg)
  {
    var errs := CheckErrors(c);
    if errs[i].Some? {
      FailuresFromMembers(errs, 0, ErrorEntry(BodyLoc(BodyKeys[i]), errs[i].value));
    }
    forall e | e in Failures(c) && e.loc == BodyLoc(BodyKeys[i])
      ensures errs[i] == Some(e.msg)
    {
      FailuresFromMembers(errs, 0, e);
      var j :| 0 <= j < |errs| && errs[j].Some? && e == ErrorEntry(BodyLoc(BodyKeys[j]), errs[j].value);
      assert BodyLoc(BodyKeys[j])[1] == Name(BodyKeys[j]);
      assert BodyKeys[j] == BodyKeys[i];
      BodyKeysDistinct(i, j);
    }
  }

  lemma BodyKeysSpelled()
    ensures && BodyKeys[0] == "first_name" && BodyKeys[1] == "last_name" && BodyKeys[2] == "company"
            && BodyKeys[3] == "telephone" && BodyKeys[4] == "email" && BodyKeys[5] == "address"
            && BodyKeys[6] == "notes"
  {
  }

  /** No two body fields share a name. */
  lemma BodyKeysDistinct(i: nat, j: nat)
    requires i < |BodyKeys| && j < |BodyKeys| && BodyKeys[i] == BodyKeys[j]
    ensures i == j
  {
  }

  /** The declared length constraints of the fields. */
  predicate WithinLimits(c: Contact) {
    && 1 <= |c.first_name| <= NameMaxLength && 1 <= |c.last_name| <= NameMaxLength
    && (c.company.None? || |c.company.value| <= CompanyMaxLength)
    && (c.telephone.None? || |c.telephone.value| <= TelephoneMaxLength)
    && (c.address.None? || |c.address.value| <= AddressMaxLength)
    && (c.notes.None? || |c.notes.value| <= NotesMaxLength)
  }

  /** A contact every check returns unchanged: the form the back end
      stores. */
  predicate IsNormalContact(c: Contact) {
    && WithinLimits(c)
    && IsNormalName(c.first_name)
    && IsNormalName(c.last_name)
    && ValidateTelephone(c.telephone) == Ok(c.telephone)
    && ValidateEmail(c.email).Ok?
  }

  /** Validation of a request body: every field is checked, in declaration
      order; if any check failed, the body is refused with one entry per
      failing field; otherwise the contact carries the values the
      validators returned. A body is accepted exactly when it meets the
      length constraints and every validator accepts it. */
  function ParseContact(c: Contact): (r: Result<Contact, seq<ErrorEntry>>)
    ensures r.Ok? <==> && WithinLimits(c)
                       && ValidateFirstName(c.first_name).Ok? && ValidateLastName(c.last_name).Ok?
                       && ValidateTelephone(c.telephone).Ok? && ValidateEmail(c.email).Ok?
    ensures r.Ok? ==> IsNormalContact(r.value)
    ensures r.Ok? ==> && r.value.id == c.id && r.value.company == c.company
                      && r.value.address == c.address && r.value.email == c.email
                      && r.value.notes == c.notes
                      && r.value.first_name == Trim(c.first_name)
                      && r.value.last_name == Trim(c.last_name)
                      && r.value.telephone == ValidateTelephone(c.telephone).value
    ensures r.Err? ==> 1 <= |r.error| <= |BodyKeys|
    ensures r.Err? ==> forall e :: e in r.error ==> IsBodyError(e)
  {
    var errs := Failures(c);
    if |errs| == 0 then
      var first := ValidateFirstName(c.first_name);
      var last := ValidateLastName(c.last_name);
      var phone := ValidateTelephone(c.telephone);
      NameFixpoints(c.first_name, First);
      NameFixpoints(c.last_name, Last);
      TelephoneFixpoint(c.telephone);
      Ok(c.(first_name := first.value, last_name := last.value, telephone := phone.value))
    else
      Err(errs)
  }

  /** A refused body names every failed check: field `BodyKeys[i]` has an
      entry in the refusal exactly when its check failed, and that entry
      carries the check's message. */
  lemma RefusalReportsFailedChecks(c: Contact, i: nat)
    requires i < |BodyKeys|
    ensures CheckError(c, i).Some? ==>
              && ParseContact(c).Err?
              && ErrorEntry(BodyLoc(BodyKeys[i]), CheckError(c, i).value) in ParseContact(c).error
    ensures ParseContact(c).Err? ==>
              forall e :: e in ParseContact(c).error && e.loc == BodyLoc(BodyKeys[i]) ==> CheckError(c, i) == Some(e.msg)
  {
    FailuresReportChecks(c, i);
  }

  /** `RefusalReportsFailedChecks` for field `BodyKeys[i]`, phrased in
      terms of that field's own check `r`. */
  lemma FieldReported<T>(c: Contact, i: nat, key: string, r: Result<T, string>)
    requires i < |BodyKeys| && BodyKeys[i] == key && CheckError(c, i) == ErrorOf(r)
    ensures r.Err? ==> ParseContact(c).Err? && ErrorEntry(BodyLoc(key), r.error) in ParseContact(c).error
    ensures ParseContact(c).Err? ==>
              forall e :: e in ParseContact(c).error && e.loc == BodyLoc(key) ==> r == Err(e.msg)
  {
    RefusalReportsFailedChecks(c, i);
  }

  // Each field's own check decides its entry in a refusal: when the check
  // fails, the body is refused with an entry located at that field that
  // carries the check's message; and every entry located at that field
  // carries the message of that field's failed check.

  /** A failed first name check is reported under `first_name`, with its message. */
  lemma FirstNameReported(c: Contact)
    ensures CheckFirstName(c).Err? ==>
              ParseContact(c).Err? && ErrorEntry(BodyLoc("first_name"), CheckFirstName(c).error) in ParseContact(c).error
    ensures ParseContact(c).Err? ==>
              forall e :: e in ParseContact(c).error && e.loc == BodyLoc("first_name") ==> CheckFirstName(c) == Err(e.msg)
  {
    CheckErrorsSlots(c);
    BodyKeysSpelled();
    FieldReported(c, 0, "first_name", CheckFirstName(c));
  }

  /** A failed last name check is reported under `last_name`, with its message. */
  lemma LastNameReported(c: Contact)
    ensures CheckLastName(c).Err? ==>
              ParseContact(c).Err? && ErrorEntry(BodyLoc("last_name"), CheckLastName(c).error) in ParseContact(c).error
    ensures ParseContact(c).Err? ==>
              forall e :: e in ParseContact(c).error && e.loc == BodyLoc("last_name") ==> CheckLastName(c) == Err(e.msg)
  {
    CheckErrorsSlots(c);
    BodyKeysSpelled();
    FieldReported(c, 1, "last_name", CheckLastName(c));
  }

  /** A failed company check is reported under `company`, with its message. */
  lemma CompanyReported(c: Contact)
    ensures CheckCompany(c).Err? ==>
              ParseContact(c).Err? && ErrorEntry(BodyLoc("company"), CheckCompany(c).error) in ParseContact(c).error
    ensures ParseContact(c).Err? ==>
              forall e :: e in ParseContact(c).error && e.loc == BodyLoc("company") ==> CheckCompany(c) == Err(e.msg)
  {
    CheckErrorsSlots(c);
    BodyKeysSpelled();
    FieldReported(c, 2, "company", CheckCompany(c));
  }

  /** A failed telephone check is reported under `telephone`, with its message. */
  lemma TelephoneReported(c: Contact)
    ensures CheckTelephone(c).Err? ==>
              ParseContact(c).Err? && ErrorEntry(BodyLoc("telephone"), CheckTelephone(c).error) in ParseContact(c).error
    ensures ParseContact(c).Err? ==>
              forall e :: e in ParseContact(c).error && e.loc == BodyLoc("telephone") ==> CheckTelephone(c) == Err(e.msg)
  {
    CheckErrorsSlots(c);
    BodyKeysSpelled();
    FieldReported(c, 3, "telephone", CheckTelephone(c));
  }

  /** A failed e-mail check is reported under `email`, with its message. */
  lemma EmailReported(c: Contact)
    ensures CheckEmail(c).Err? ==>
              ParseContact(c).Err? && ErrorEntry(BodyLoc("email"), CheckEmail(c).error) in ParseContact(c).error
    ensures ParseContact(c).Err? ==>
              forall e :: e in ParseContact(c).error && e.loc == BodyLoc("email") ==> CheckEmail(c) == Err(e.msg)
  {
    CheckErrorsSlots(c);
    BodyKeysSpelled();
    FieldReported(c, 4, "email", CheckEmail(c));
  }

  /** A failed address check is reported under `address`, with its message. */
  lemma AddressReported(c: Contact)
    ensures CheckAddress(c).Err? ==>
              ParseContact(c).Err? && ErrorEntry(BodyLoc("address"), CheckAddress(c).error) in ParseContact(c).error
    ensures ParseContact(c).Err? ==>
              forall e :: e in ParseContact(c).error && e.loc == BodyLoc("address") ==> CheckAddress(c) == Err(e.msg)
  {
    CheckErrorsSlots(c);
    BodyKeysSpelled();
    FieldReported(c, 5, "address", CheckAddress(c));
  }

  /** A failed notes check is reported under `notes`, with its message. */
  lemma NotesReported(c: Contact)
    ensures CheckNotes(c).Err? ==>
              ParseContact(c).Err? && ErrorEntry(BodyLoc("notes"), CheckNotes(c).error) in ParseContact(c).error
    ensures ParseContact(c).Err? ==>
              forall e :: e in ParseContact(c).error && e.loc == BodyLoc("notes") ==> CheckNotes(c) == Err(e.msg)
  {
    CheckErrorsSlots(c);
    BodyKeysSpelled();
    FieldReported(c, 6, "notes", CheckNotes(c));
  }

  /** A contact in normal form passes validation unchanged. */
  lemma NormalIsFixpoint(c: Contact)
    requires IsNormalContact(c)
    ensures ParseContact(c) == Ok(c)
  {
    NameFixpoints(c.first_name, First);
    NameFixpoints(c.last_name, Last);
    assert ParseContact(c).Ok?;
  }

  /** Validating a validated body changes nothing, and the bodies the
      validation returns unchanged are exactly the normal contacts. */
  lemma ParseIdempotent(c: Contact)
    ensures ParseContact(c) == Ok(c) <==> IsNormalContact(c)
    ensures ParseContact(c).Ok? ==> ParseContact(ParseContact(c).value) == ParseContact(c)
  {
    if IsNormalContact(c) {
      NormalIsFixpoint(c);
    }
    var r := ParseContact(c);
    if r.Ok? {
      NormalIsFixpoint(r.value);
    }
  }
}

=== FILE: contact_store.dfy ===
/** The CRUD endpoints of backend/main.py over the `contacts` table:
    `get_all_contacts`, `get_contact`, `create_contact`, `update_contact`
    and `delete_contact`. The table is a map from row id to row; a request
    body is validated by `ParseContact` before the endpoint runs, and a
    refused body is answered by the validation-error handler. */
module ContactStore {
  import opened Wrappers
  import opened ErrorHandler
  import opened ContactModel

  /** One row of the table, without its id. */
  datatype Record = Record(
    first_name: string,
    last_name: string,
    company: Option<string>,
    telephone: Option<string>,
    email: Option<string>,
    address: Option<string>,
    notes: Option<string>)

  /** The table: row id to row. */
  type Store = map<int, Record>

  /** The row stored for a body: every field except `id`. */
  function ToRecord(c: Contact): Record {
    Record(c.first_name, c.last_name, c.company, c.telephone, c.email, c.address, c.notes)
  }

  /** A row as a response serialises it, with its id. */
  function ToContact(id: int, r: Record): Contact {
    Contact(Some(id), r.first_name, r.last_name, r.company, r.telephone, r.email, r.address, r.notes)
  }

  /** Storing a body and reading the row back gives the body with the
      row's id in place of whatever id the body carried. */
  lemma RecordRoundTrip(c: Contact, id: int)
    ensures ToContact(id, ToRecord(c)) == c.(id := Some(id))
    ensures ToRecord(ToContact(id, ToRecord(c))) == ToRecord(c)
  {
  }

  /** The duplicate test: same first name, last name and e-mail. A missing
      e-mail equals a missing e-mail, as `== None` becomes `IS NULL`. */
  predicate SameIdentity(r: Record, c: Contact) {
    r.first_name == c.first_name && r.last_name == c.last_name && r.email == c.email
  }

  /** Some row other than `except` has the identity of `c`. */
  predicate Taken(store: Store, c: Contact, except: Option<int>) {
    exists id :: id in store && Some(id) != except && SameIdentity(store[id], c)
  }

  /** No two rows share first name, last name and e-mail. */
  ghost predicate NoDuplicates(store: Store) {
    forall i, j :: i in store && j in store && i != j ==>
      !SameIdentity(store[i], ToContact(j, store[j]))
  }

  /** Every row is a contact the validation leaves unchanged. */
  ghost predicate AllNormal(store: Store) {
    forall id :: id in store ==> IsNormalContact(ToContact(id, store[id]))
  }

  ghost predicate Valid(store: Store) {
    NoDuplicates(store) && AllNormal(store)
  }

  const OK: int := 200
  const CREATED: int := 201
  const BAD_REQUEST: int := 400
  const NOT_FOUND: int := 404

  const DuplicateOnCreate: string := "Contact with same name and email already exists"
  const DuplicateOnUpdate: string := "Another contact with same name and email already exists"
  const UpdateMissing: string := "Contact not found"
  const DeleteMissing: string := "\U{270B} Contact does not exsist"
  const Deleted: string := "\U{1F44C} Contact deleted"

  /** A response body. */
  datatype Body =
    | ContactBody(contact: Contact)
    | Detail(detail: string)
    | Message(message: string)
    | Invalid(reply: ErrorReply)

  datatype Response = Response(status: int, body: Body)

  /** The table after a request, and the response. */
  datatype Outcome = Outcome(store: Store, response: Response)

  /** The answer to a body the validation refused. */
  function Refused(store: Store, errs: seq<ErrorEntry>): (r: Outcome)
    ensures r.store == store && r.response.status == UnprocessableEntity
  {
    var reply := HandleValidationError(errs);
    Outcome(store, Response(reply.status, Invalid(reply)))
  }

  // ---------------------------------------------------------------------
  // Reads
  // ---------------------------------------------------------------------

  /** `get_contact`: the row with that id, if there is one. */
  function GetContact(store: Store, id: int): (r: Option<Contact>)
    ensures r.Some? <==> id in store
    ensures r.Some? ==> r.value.id == Some(id) && ToRecord(r.value) == store[id]
  {
    if id in store then Some(ToContact(id, store[id])) else None
  }

  /** `get_all_contacts`: every row, with its id. */
  function AllContacts(store: Store): (r: set<Contact>)
    ensures forall id :: id in store ==> ToContact(id, store[id]) in r
    ensures forall c :: c in r ==> c.id.Some? && GetContact(store, c.id.value) == Some(c)
  {
    set id | id in store :: ToContact(id, store[id])
  }

  // ---------------------------------------------------------------------
  // Writes, on a validated body
  // ---------------------------------------------------------------------

  /** `create_contact` once the body is valid: refused with 400 when a row
      has the same identity, otherwise a new row under `newId`, the id the
      database hands out, and 201 with that row. */
  function CreateContact(store: Store, c: Contact, newId: int): (r: Outcome)
    requires newId !in store
    ensures Taken(store, c, None) ==> r == Outcome(store, Response(BAD_REQUEST, Detail(DuplicateOnCreate)))
    ensures !Taken(store, c, None) ==>
              && r.response.status == CREATED
              && r.store.Keys == store.Keys + {newId}
              && GetContact(r.store, newId) == Some(c.(id := Some(newId)))
              && r.response.body == ContactBody(c.(id := Some(newId)))
              && forall id :: id in store ==> r.store[id] == store[id]
  {
    if Taken(store, c, None) then
      Outcome(store, Response(BAD_REQUEST, Detail(DuplicateOnCreate)))
    else
      var rec := ToRecord(c);
      RecordRoundTrip(c, newId);
      Outcome(store[newId := rec], Response(CREATED, ContactBody(ToContact(newId, rec))))
  }

  /** `update_contact` once the body is valid: 404 when there is no row
      `id`; 400 when another row has the body's identity; otherwise row
      `id` takes every field of the body except its `id`, and 200 with the
      row. */
  function UpdateContact(store: Store, id: int, c: Contact): (r: Outcome)
    ensures id !in store ==> r == Outcome(store, Response(NOT_FOUND, Detail(UpdateMissing)))
    ensures id in store && Taken(store, c, Some(id)) ==>
              r == Outcome(store, Response(BAD_REQUEST, Detail(DuplicateOnUpdate)))
    ensures id in store && !Taken(store, c, Some(id)) ==>
              && r.response.status == OK
              && r.store.Keys == store.Keys
              && GetContact(r.store, id) == Some(c.(id := Some(id)))
              && r.response.body == ContactBody(c.(id := Some(id)))
              && forall k :: k in store && k != id ==> r.store[k] == store[k]
  {
    if id !in store then
      Outcome(store, Response(NOT_FOUND, Detail(UpdateMissing)))
    else if Taken(store, c, Some(id)) then
      Outcome(store, Response(BAD_REQUEST, Detail(DuplicateOnUpdate)))
    else
      var rec := ToRecord(c);
      RecordRoundTrip(c, id);
      Outcome(store[id := rec], Response(OK, ContactBody(ToContact(id, rec))))
  }

  /** `delete_contact`: 404 when there is no row `id`, otherwise the row is
      removed and 200 with a message. */
  function DeleteContact(store: Store, id: int): (r: Outcome)
    ensures id !in store ==> r == Outcome(store, Response(NOT_FOUND, Detail(DeleteMissing)))
    ensures id in store ==>
              && r.response == Response(OK, Message(Deleted))
              && r.store.Keys == store.Keys - {id}
              && forall k :: k in r.store ==> r.store[k] == store[k]
  {
    if id !in store then Outcome(store, Response(NOT_FOUND, Detail(DeleteMissing)))
    else Outcome(store - {id}, Response(OK, Message(Deleted)))
  }

  // ---------------------------------------------------------------------
  // Whole requests
  // ---------------------------------------------------------------------

  /** POST /create-contact. */
  function CreateRequest(store: Store, body: Contact, newId: int): (r: Outcome)
    requires newId !in store
    ensures ParseContact(body).Err? ==> r.store == store && r.response.status == UnprocessableEntity
    ensures r.response.status == CREATED <==> ParseContact(body).Ok? && !Taken(store, ParseContact(body).value, None)
  {
    match ParseContact(body)
    case Err(errs) => Refused(store, errs)
    case Ok(c) => CreateContact(store, c, newId)
  }

  /** PATCH /update-contact/{id}. */
  function UpdateRequest(store: Store, id: int, body: Contact): (r: Outcome)
    ensures ParseContact(body).Err? ==> r.store == store && r.response.status == UnprocessableEntity
    ensures r.response.status == OK <==>
              ParseContact(body).Ok? && id in store && !Taken(store, ParseContact(body).value, Some(id))
    ensures r.response.status == OK ==>
              && r.store.Keys == store.Keys
              && r.store[id] == ToRecord(ParseContact(body).value)
              && forall k :: k in store && k != id ==> r.store[k] == store[k]
  {
    match ParseContact(body)
    case Err(errs) => Refused(store, errs)
    case Ok(c) => UpdateContact(store, id, c)
  }

  // ---------------------------------------------------------------------
  // Properties
  // ---------------------------------------------------------------------

  /** Identity depends only on the names and the e-mail, never on the id. */
  lemma TakenIgnoresId(store: Store, c: Contact, id: Option<int>, except: Option<int>)
    ensures Taken(store, c, except) == Taken(store, c.(id := id), except)
  {
    assert forall k :: k in store ==> (SameIdentity(store[k], c) <==> SameIdentity(store[k], c.(id := id)));
  }

  /** A refused request leaves the table as it was; an accepted one keeps
      the table free of duplicates and holds only validated rows. */
  lemma CreatePreservesValid(store: Store, body: Contact, newId: int)
    requires newId !in store && Valid(store)
    ensures Valid(CreateRequest(store, body, newId).store)
  {
    var r := CreateRequest(store, body, newId);
    if ParseContact(body).Ok? && !Taken(store, ParseContact(body).value, None) {
      var c := ParseContact(body).value;
      RecordRoundTrip(c, newId);
      forall i, j | i in r.store && j in r.store && i != j
        ensures !SameIdentity(r.store[i], ToContact(j, r.store[j]))
      {
        if i == newId {
          assert !SameIdentity(store[j], c);
        } else if j == newId {
          assert !SameIdentity(store[i], c);
        }
      }
      forall id | id in r.store
        ensures IsNormalContact(ToContact(id, r.store[id]))
      {
      }
    }
  }

  lemma UpdatePreservesValid(store: Store, id: int, body: Contact)
    requires Valid(store)
    ensures Valid(UpdateRequest(store, id, body).store)
  {
    var r := UpdateRequest(store, id, body);
    if ParseContact(body).Ok? && id in store && !Taken(store, ParseContact(body).value, Some(id)) {
      var c := ParseContact(body).value;
      RecordRoundTrip(c, id);
      forall i, j | i in r.store && j in r.store && i != j
        ensures !SameIdentity(r.store[i], ToContact(j, r.store[j]))
      {
        if i == id {
          assert !SameIdentity(store[j], c);
        } else if j == id {
          assert !SameIdentity(store[i], c);
        }
      }
      forall k | k in r.store
        ensures IsNormalContact(ToContact(k, r.store[k]))
      {
      }
    }
  }

  lemma DeletePreservesValid(store: Store, id: int)
    requires Valid(store)
    ensures Valid(DeleteContact(store, id).store)
  {
  }

  /** Every row of a valid table passes the response model's validation
      unchanged, so the contact a response returns is the row itself. */
  lemma StoredRowsRevalidate(store: Store, id: int)
    requires Valid(store) && id in store
    ensures ParseContact(ToContact(id, store[id])) == Ok(ToContact(id, store[id]))
  {
    NormalIsFixpoint(ToContact(id, store[id]));
  }

  /** A created contact can be read back: the validated body under the new
      id. */
  lemma CreateThenGet(store: Store, body: Contact, newId: int)
    requires newId !in store
    requires CreateRequest(store, body, newId).response.status == CREATED
    ensures GetContact(CreateRequest(store, body, newId).store, newId)
            == Some(ParseContact(body).value.(id := Some(newId)))
  {
  }

  /** An accepted update can be read back: row `id` is the validated body
      under that id, and every other id reads as before. */
  lemma UpdateThenGet(store: Store, id: int, body: Contact, other: int)
    requires UpdateRequest(store, id, body).response.status == OK
    ensures GetContact(UpdateRequest(store, id, body).store, id) == Some(ParseContact(body).value.(id := Some(id)))
    ensures other != id ==> GetContact(UpdateRequest(store, id, body).store, other) == GetContact(store, other)
  {
    RecordRoundTrip(ParseContact(body).value, id);
  }

  /** Posting the same body again is refused as a duplicate and changes
      nothing. */
  lemma CreateTwiceRefused(store: Store, body: Contact, newId: int, newId2: int)
    requires newId !in store
    requires CreateRequest(store, body, newId).response.status == CREATED
    requires newId2 !in CreateRequest(store, body, newId).store
    ensures var s1 := CreateRequest(store, body, newId).store;
            CreateRequest(s1, body, newId2) == Outcome(s1, Response(BAD_REQUEST, Detail(DuplicateOnCreate)))
  {
    var c := ParseContact(body).value;
    var s1 := CreateRequest(store, body, newId).store;
    assert SameIdentity(s1[newId], c);
    assert Taken(s1, c, None);
  }

  lemma RemoveInserted(store: Store, k: int, v: Record)
    requires k !in store
    ensures store[k := v] - {k} == store
  {
    assert (store[k := v] - {k}).Keys == store.Keys;
  }

  /** Deleting a contact just created gives back the table from before. */
  lemma CreateThenDelete(store: Store, body: Contact, newId: int)
    requires newId !in store
    requires CreateRequest(store, body, newId).response.status == CREATED
    ensures DeleteContact(CreateRequest(store, body, newId).store, newId) == Outcome(store, Response(OK, Message(Deleted)))
  {
    var c := ParseContact(body).value;
    assert CreateRequest(store, body, newId) == CreateContact(store, c, newId);
    RemoveInserted(store, newId, ToRecord(c));
  }

  /** A deleted contact is gone, and deleting it again is answered with
      404. */
  lemma DeleteThenGet(store: Store, id: int)
    ensures GetContact(DeleteContact(store, id).store, id).None?
    ensures DeleteContact(DeleteContact(store, id).store, id).response.status == NOT_FOUND
  {
  }

  /** The body's own `id` plays no part in an update: the path id decides
      which row changes. */
  lemma UpdateIgnoresBodyId(store: Store, id: int, body: Contact, other: Option<int>)
    ensures UpdateRequest(store, id, body) == UpdateRequest(store, id, body.(id := other))
  {
    var p := ParseContact(body);
    var q := ParseContact(body.(id := other));
    assert p.Ok? <==> q.Ok?;
    if p.Ok? {
      assert q.value == p.value.(id := other);
      TakenIgnoresId(store, p.value, other, Some(id));
      RecordRoundTrip(p.value, id);
      RecordRoundTrip(q.value, id);
    } else {
      assert Failures(body) == Failures(body.(id := other));
    }
  }

  /** Sending the same update twice leaves the table as the first one did,
      and the second is answered like the first. */
  lemma UpdateIdempotent(store: Store, id: int, body: Contact)
    requires UpdateRequest(store, id, body).response.status == OK
    ensures var r1 := UpdateRequest(store, id, body);
            UpdateRequest(r1.store, id, body) == r1
  {
    var c := ParseContact(body).value;
    var r1 := UpdateRequest(store, id, body);
    assert !Taken(r1.store, c, Some(id)) by {
      forall k | k in r1.store && Some(k) != Some(id)
        ensures !SameIdentity(r1.store[k], c)
      {
        assert r1.store[k] == store[k];
      }
    }
    assert r1.store[id := ToRecord(c)] == r1.store;
  }
}

=== FILE: cross_checks.dfy ===
/** How the client-side validator of frontend/src/utils/validation.js and
    the server-side validators of backend/main.py relate: where every value
    one side accepts is accepted by the other, and inputs on which they
    disagree. */
module CrossChecks {
  import opened Wrappers
  import opened Text
  import opened Messages
  import opened Patterns
  import opened Validation
  import opened ValidationExamples
  import opened ContactModel

  // ---------------------------------------------------------------------
  // Names
  // ---------------------------------------------------------------------

  /** Every name the server accepts, the client accepts as well. */
  lemma ServerNameAcceptedByClient(v: string, name: NameLabel)
    requires ValidateName(v, name).Ok?
    ensures NameRule(Some(v), name).None?
  {
    assert Trim(v) != [];
  }

  /** The client counts length before trimming and the server after: " a"
      passes the client and is too short for the server. */
  lemma ClientCountsSpaces(v: string)
    requires v == " a"
    ensures NameRule(Some(v), First).None?
    ensures ValidateName(v, First) == Err(NameTooShort(First))
  {
    assert !IsWhitespace(v[1]);
    assert |Trim(v)| < MinNameLength;
  }

  /** The client does not check the characters of a name: "R2D2" passes
      the client and is refused by the server. */
  lemma ClientIgnoresCharacters(v: string)
    requires v == "R2D2"
    ensures NameRule(Some(v), First).None?
    ensures ValidateName(v, First) == Err(NameBadCharacters(First))
  {
    assert !IsWhitespace(v[0]) && !IsWhitespace(v[3]);
    TrimOfTrimmed(v);
    assert !IsNameChar(v[1]);
  }

  // ---------------------------------------------------------------------
  // E-mail
  // ---------------------------------------------------------------------

  /** Every e-mail the client lets through, the server returns unchanged. */
  lemma ClientEmailAcceptedByServer(v: Option<string>)
    requires EmailRule(v).None?
    ensures ValidateEmail(v) == Ok(v)
  {
  }

  /** A string ending in white space never matches the e-mail pattern: its
      last segment would have to hold that white space. */
  lemma TrailingSpaceNotEmail(s: string)
    requires |s| > 0 && IsWhitespace(s[|s| - 1])
    ensures !MatchesEmailPattern(s)
  {
    forall at, dot | 0 <= at < dot < |s| && s[at] == '@' && s[dot] == '.'
      ensures !IsSegment(s[dot + 1..])
    {
      assert s[dot + 1..][|s| - dot - 2] == s[|s| - 1];
    }
  }

  /** The server is the looser one on e-mail: it passes "NULL" through,
      and Python's `$` lets a final newline through, while the client
      refuses both. */
  lemma ServerLooserOnEmail(marker: string, withNewline: string)
    requires marker == "NULL" && withNewline == "a@b.co\n"
    ensures ValidateEmail(Some(marker)) == Ok(Some(marker))
    ensures EmailRule(Some(marker)) == Some(InvalidEmail)
    ensures ValidateEmail(Some(withNewline)) == Ok(Some(withNewline))
    ensures EmailRule(Some(withNewline)) == Some(InvalidEmail)
  {
    assert !MatchesEmailPattern(marker) by {
      assert '@' !in marker;
    }
    ShortEmailAccepted();
    assert withNewline[..|withNewline| - 1] == "a@b.co";
    assert PythonEmailMatch(withNewline);
    TrailingSpaceNotEmail(withNewline);
  }

  // ---------------------------------------------------------------------
  // Telephone
  // ---------------------------------------------------------------------

  predicate IsPlus(c: char) {
    c == '+'
  }

  /** The server's clean-up is the client's separator stripping followed
      by dropping the plus signs. */
  lemma CleanPhoneIsStripThenDropPlus(s: string)
    ensures CleanPhone(s) == Without(StripSeparators(s), IsPlus)
  {
    WithoutTwice(s, IsPhoneSeparator, IsPlus, IsPhoneJunk);
  }

  /** A number the client's pattern accepts loses at most its leading
      `+` when the plus signs are dropped, and what is left is 1 to 16
      digits. */
  lemma PhoneNumberDigits(t: string)
    requires IsPhoneNumber(t)
    ensures var digits := Without(t, IsPlus);
            1 <= |digits| <= 16 && AllDigits(digits)
            && digits == (if t[0] == '+' then t[1..] else t)
  {
    var digits := if t[0] == '+' then t[1..] else t;
    assert forall i :: 0 <= i < |digits| ==> !IsPlus(digits[i]) by {
      forall i | 0 <= i < |digits| ensures !IsPlus(digits[i]) {
        assert IsDigit(digits[i]);
      }
    }
    WithoutKeepsAll(digits, IsPlus);
    if t[0] == '+' {
      assert Without(t, IsPlus) == [] + Without(t[1..], IsPlus);
    }
  }

  /** "NULL" is not a telephone the client accepts. */
  lemma NullNotAPhone(s: string)
    requires s == "NULL"
    ensures !IsValidPhone(s)
  {
    WithoutKeepsAll(s, IsPhoneSeparator);
    assert !IsDigit(StripSeparators(s)[0]);
  }

  /** Every telephone the client lets through, the server accepts, and it
      stores the client's stripped number without its leading `+`. */
  lemma ClientPhoneAcceptedByServer(s: string)
    requires s != "" && PhoneRule(Some(s)).None?
    ensures ValidateTelephone(Some(s)) == Ok(Some(Without(StripSeparators(s), IsPlus)))
  {
    var t := StripSeparators(s);
    PhoneNumberMatchesPattern(t);
    assert IsValidPhone(s);
    PhoneNumberDigits(t);
    CleanPhoneIsStripThenDropPlus(s);
    if s == "NULL" {
      NullNotAPhone(s);
      assert false;
    }
    assert !IsNullMarker(Some(s));
  }

  /** A body whose telephone the client lets through, once the server
      accepts it, stores the client's stripped number without its `+`. */
  lemma ClientPhoneStored(c: Contact)
    requires c.telephone.Some? && c.telephone.value != "" && PhoneRule(c.telephone).None?
    requires ParseContact(c).Ok?
    ensures ParseContact(c).value.telephone == Some(Without(StripSeparators(c.telephone.value), IsPlus))
  {
    ClientPhoneAcceptedByServer(c.telephone.value);
  }

  /** The client refuses a leading zero; the server keeps it. */
  lemma LeadingZeroOnlyServer(s: string)
    requires s == "0123"
    ensures PhoneRule(Some(s)) == Some(InvalidPhone)
    ensures ValidateTelephone(Some(s)) == Ok(Some(s))
  {
    assert PhoneRule(Some(s)) == Some(InvalidPhone) by {
      LeadingZeroPhoneRefused();
    }
    assert CleanPhone(s) == s by {
      WithoutKeepsAll(s, IsPhoneJunk);
    }
  }

  /** A raw telephone longer than 20 characters is refused by the length
      limit, whatever the validator would make of it. */
  lemma LongPhoneRefused(c: Contact)
    requires c.telephone.Some? && |c.telephone.value| > TelephoneMaxLength
    ensures CheckTelephone(c) == Err(TooLongFor(TelephoneMaxLength))
    ensures ParseContact(c).Err?
  {
  }

  lemma DigitNotSeparator(c: char)
    requires IsDigit(c)
    ensures !IsPhoneSeparator(c)
  {
  }

  /** A number the client accepts stays acceptable with any run of spaces
      after it. */
  lemma PaddedNumberValid(number: string, pad: string)
    requires IsPhoneNumber(number)
    requires forall i :: 0 <= i < |pad| ==> pad[i] == ' '
    ensures IsValidPhone(number + pad)
  {
    forall i | 0 <= i < |number|
      ensures !IsPhoneSeparator(number[i])
    {
      if i > 0 || number[0] != '+' {
        var digits := if number[0] == '+' then number[1..] else number;
        var k := if number[0] == '+' then i - 1 else i;
        assert number[i] == digits[k];
        DigitNotSeparator(number[i]);
      }
    }
    WithoutKeepsAll(number, IsPhoneSeparator);
    WithoutDropsAll(pad, IsPhoneSeparator);
    WithoutAppend(number, pad, IsPhoneSeparator);
  }

  /** The server limits the raw telephone to 20 characters before any
      clean-up, the client not at all: a well-formed number padded with
      spaces past 20 characters passes the client and the server's
      validator, and is refused by the server's length limit. */
  lemma PaddedPhoneOnlyClient(number: string, pad: string, c: Contact)
    requires IsPhoneNumber(number)
    requires forall i :: 0 <= i < |pad| ==> pad[i] == ' '
    requires |number| + |pad| > TelephoneMaxLength && c.telephone == Some(number + pad)
    ensures PhoneRule(Some(number + pad)).None?
    ensures ValidateTelephone(Some(number + pad)).Ok?
    ensures ParseContact(c).Err?
  {
    PaddedNumberValid(number, pad);
    PhoneNumberMatchesPattern(StripSeparators(number + pad));
    ClientPhoneAcceptedByServer(number + pad);
    LongPhoneRefused(c);
  }

  // ---------------------------------------------------------------------
  // Notes
  // ---------------------------------------------------------------------

  /** Both sides allow at most 500 characters of notes, but the server's
      declared length limit is checked first, so a refusal carries the
      length-limit message and the notes validator's own message is never
      sent. */
  lemma NotesAgree(c: Contact)
    ensures NotesRule(c.notes).None? <==> CheckNotes(c).Ok?
    ensures NotesRule(c.notes).Some? ==> CheckNotes(c) == Err(TooLongFor(NotesMaxLength))
  {
  }
}

=== FILE: error_handler.dfy ===
/** The handler for request-validation errors in backend/main.py
    (`validation_exception_handler`): every error becomes one line
    "<field>: <message>" in a 422 response. */
module ErrorHandler {
  import opened Wrappers
  import opened Text

  /** One element of an error location: a field name or a list index. */
  datatype LocItem = Name(name: string) | Index(index: nat)

  /** One entry of the validation error: where it is and its message. */
  datatype ErrorEntry = ErrorEntry(loc: seq<LocItem>, msg: string)

  /** A location element as an f-string renders it. */
  function LocText(item: LocItem): string {
    match item
    case Name(n) => n
    case Index(i) => ShowNat(i)
  }

  /** The field an entry is reported under: the last element of its
      location, or "unknown" when the location is empty. */
  function FieldOf(loc: seq<LocItem>): string {
    if |loc| == 0 then "unknown" else LocText(loc[|loc| - 1])
  }

  /** One line of the response body. */
  function FormatError(e: ErrorEntry): string {
    FieldOf(e.loc) + ": " + e.msg
  }

  const UnprocessableEntity: int := 422

  /** The JSON response: status, `detail` and the `errors` list. */
  datatype ErrorReply = ErrorReply(status: int, detail: string, errors: seq<string>)

  /** `validation_exception_handler`: status 422, detail "Validation error",
      and one line per error, in the order of the errors. */
  function HandleValidationError(errs: seq<ErrorEntry>): (r: ErrorReply)
    ensures r.status == UnprocessableEntity && r.detail == "Validation error"
    ensures |r.errors| == |errs|
    ensures forall i :: 0 <= i < |errs| ==> r.errors[i] == FormatError(errs[i])
  {
    ErrorReply(UnprocessableEntity, "Validation error",
               seq(|errs|, i requires 0 <= i < |errs| => FormatError(errs[i])))
  }

  /** Cuts a response line at its first ": " into field and message. */
  function SplitLine(line: string): Option<(string, string)> {
    match Find(line, ": ")
    case None => None
    case Some(i) => Some((line[..i], line[i + 2..]))
  }

  /** A line can be read back into its field and message whenever the
      field itself contains no ": ". */
  lemma LineRoundTrip(e: ErrorEntry)
    requires !Contains(FieldOf(e.loc), ": ")
    ensures SplitLine(FormatError(e)) == Some((FieldOf(e.loc), e.msg))
  {
    var f := FieldOf(e.loc);
    FindAfterPrefix(f, ": ", e.msg);
    var line := FormatError(e);
    assert line[..|f|] == f;
    assert line[|f| + 2..] == e.msg;
  }

  /** An entry located at a list index is reported under that index, and
      the index can be read back from the line's field. */
  lemma IndexFieldRoundTrip(loc: seq<LocItem>)
    requires |loc| > 0 && loc[|loc| - 1].Index?
    ensures AllDigits(FieldOf(loc))
    ensures ReadNat(FieldOf(loc)) == loc[|loc| - 1].index
  {
    ReadShowNat(loc[|loc| - 1].index);
  }
}

=== FILE: messages.dfy ===
/** The user-facing error messages. The front end and the back end use the
    same wording for the rules they share. */
module Messages {
  import opened Text

  /** Which of the two name fields a message is about. */
  datatype NameLabel = First | Last

  function LabelText(name: NameLabel): string {
    match name
    case First => "First name"
    case Last => "Last name"
  }

  function NameRequired(name: NameLabel): string {
    LabelText(name) + " is required"
  }

  function NameTooShort(name: NameLabel): string {
    LabelText(name) + " must be at least 2 characters"
  }

  function NameTooLong(name: NameLabel): string {
    LabelText(name) + " cannot exceed 50 characters"
  }

  function NameBadCharacters(name: NameLabel): string {
    LabelText(name) + " can only contain Latin or Cyrillic characters"
  }

  const InvalidEmail: string := "Please enter a valid email address"
  const InvalidPhone: string := "Please enter a valid phone number"
  const NotesTooLong: string := "Notes cannot exceed 500 characters"

  /** The longest notes text either side accepts. */
  const MaxNotesLength: nat := 500

  /** The name messages are pairwise distinct, so a message tells which
      rule failed. */
  lemma NameMessagesDistinct(name: NameLabel)
    ensures NameRequired(name) != NameTooShort(name)
    ensures NameRequired(name) != NameTooLong(name)
    ensures NameRequired(name) != NameBadCharacters(name)
    ensures NameTooShort(name) != NameTooLong(name)
    ensures NameTooShort(name) != NameBadCharacters(name)
    ensures NameTooLong(name) != NameBadCharacters(name)
  {
    var n := |LabelText(name)|;
    assert |NameRequired(name)| == n + 12;
    assert |NameTooShort(name)| == n + 30;
    assert |NameTooLong(name)| == n + 28;
    assert |NameBadCharacters(name)| == n + 46;
  }
}

=== FILE: patterns.dfy ===
/** The e-mail regular expression `^[^\s@]+@[^\s@]+\.[^\s@]+$`, which the
    front end (validation.js) and the back end (main.py) both use. */
module Patterns {
  import opened Wrappers
  import opened Text

  /** `[^\s@]`: a character allowed in each of the three segments. */
  predicate IsSegmentChar(c: char) {
    !IsWhitespace(c) && c != '@'
  }

  /** `[^\s@]+` */
  predicate IsSegment(s: string) {
    |s| > 0 && forall i :: 0 <= i < |s| ==> IsSegmentChar(s[i])
  }

  /** The regular expression read off its structure: a segment, `@`, a
      segment, a literal `.`, a segment, and nothing else. Because `.` is
      itself a segment character, the split points are existential. */
  ghost predicate MatchesEmailPattern(s: string) {
    exists at, dot ::
      && 0 <= at < dot < |s| && s[at] == '@' && s[dot] == '.'
      && IsSegment(s[..at]) && IsSegment(s[at + 1..dot]) && IsSegment(s[dot + 1..])
  }

  /** What follows the `@`: segment characters only, with a `.` that is
      neither the first nor the last of them. */
  predicate IsDomain(d: string) {
    && |d| >= 3
    && (forall i :: 0 <= i < |d| ==> IsSegmentChar(d[i]))
    && '.' in d[1..|d| - 1]
  }

  /** A deterministic reading of the pattern: cut at the first `@`; the
      part before it is a segment and the part after it is a domain. */
  predicate IsEmail(s: string) {
    match Find(s, "@")
    case None => false
    case Some(at) => IsSegment(s[..at]) && IsDomain(s[at + 1..])
  }

  /** The scanner accepts exactly the strings the pattern matches. */
  lemma EmailMatchesPattern(s: string)
    ensures IsEmail(s) <==> MatchesEmailPattern(s)
  {
    if IsEmail(s) {
      EmailSound(s);
    }
    if MatchesEmailPattern(s) {
      var at, dot :|
        && 0 <= at < dot < |s| && s[at] == '@' && s[dot] == '.'
        && IsSegment(s[..at]) && IsSegment(s[at + 1..dot]) && IsSegment(s[dot + 1..]);
      EmailComplete(s, at, dot);
    }
  }

  lemma EmailSound(s: string)
    requires IsEmail(s)
    ensures MatchesEmailPattern(s)
  {
    var at := Find(s, "@").value;
    assert s[at..at + 1] == "@";
    var d := s[at + 1..];
    var k :| 0 <= k < |d| - 2 && d[1..|d| - 1][k] == '.';
    var dot := at + 2 + k;
    assert s[dot] == '.';
    assert s[at + 1..dot] == d[..k + 1];
    assert s[dot + 1..] == d[k + 2..];
  }

  lemma EmailComplete(s: string, at: int, dot: int)
    requires 0 <= at < dot < |s| && s[at] == '@' && s[dot] == '.'
    requires IsSegment(s[..at]) && IsSegment(s[at + 1..dot]) && IsSegment(s[dot + 1..])
    ensures IsEmail(s)
  {
    assert s[at..at + 1] == "@";
    assert OccursAt(s, "@", at);
    assert forall j :: 0 <= j < at ==> !OccursAt(s, "@", j) by {
      forall j | 0 <= j < at
        ensures !OccursAt(s, "@", j)
      {
        assert IsSegmentChar(s[..at][j]);
        assert s[j..j + 1] == [s[j]];
      }
    }
    var d := s[at + 1..];
    assert d[1..|d| - 1][dot - at - 2] == '.';
    forall i | 0 <= i < |d|
      ensures IsSegmentChar(d[i])
    {
      if at + 1 + i < dot {
        assert d[i] == s[at + 1..dot][i];
      } else if at + 1 + i > dot {
        assert d[i] == s[dot + 1..][at + i - dot];
      }
    }
  }
}

=== FILE: text.dfy ===
/** Character classes and string operations shared by the front end and the
    back end: white space, ASCII digits, trimming, filtering, searching for a
    two-character separator, joining and splitting, and decimal rendering. */
module Text {
  import opened Wrappers

  /** The characters that JavaScript's `\s` and `String.prototype.trim`
      treat as white space (the WhiteSpace and LineTerminator productions).
      The model uses this one set for Python's `\s` and `str.strip` too. */
  predicate IsWhitespace(c: char) {
    || c == ' ' || c == '\t' || c == '\n' || c == '\r'
    || c == '\U{000B}' || c == '\U{000C}' || c == '\U{00A0}' || c == '\U{1680}'
    || ('\U{2000}' <= c <= '\U{200A}')
    || c == '\U{2028}' || c == '\U{2029}' || c == '\U{202F}' || c == '\U{205F}'
    || c == '\U{3000}' || c == '\U{FEFF}'
  }

  /** `\d`, read as the ASCII digits. */
  predicate IsDigit(c: char) {
    '0' <= c <= '9'
  }

  predicate AllWhitespace(s: string) {
    forall i :: 0 <= i < |s| ==> IsWhitespace(s[i])
  }

  predicate AllDigits(s: string) {
    forall i :: 0 <= i < |s| ==> IsDigit(s[i])
  }

  /** True when `s` neither starts nor ends with white space. */
  predicate IsTrimmed(s: string) {
    s == [] || (!IsWhitespace(s[0]) && !IsWhitespace(s[|s| - 1]))
  }

  // ---------------------------------------------------------------------
  // Trimming
  // ---------------------------------------------------------------------

  /** The first index from `i` on that does not hold white space, or
      `|s|` when there is none. */
  function SkipSpace(s: string, i: nat): (n: nat)
    requires i <= |s|
    ensures i <= n <= |s|
    ensures forall k :: i <= k < n ==> IsWhitespace(s[k])
    ensures n == |s| || !IsWhitespace(s[n])
    decreases |s| - i
  {
    if i == |s| || !IsWhitespace(s[i]) then i else SkipSpace(s, i + 1)
  }

  /** The least `m` from `lo` up to `j` such that `s[m..j]` is all white
      space. */
  function SkipSpaceBack(s: string, lo: nat, j: nat): (m: nat)
    requires lo <= j <= |s|
    ensures lo <= m <= j
    ensures forall k :: m <= k < j ==> IsWhitespace(s[k])
    ensures m == lo || !IsWhitespace(s[m - 1])
    decreases j
  {
    if j == lo || !IsWhitespace(s[j - 1]) then j else SkipSpaceBack(s, lo, j - 1)
  }

  /** JavaScript's `trim()` and Python's `strip()`: the slice of `s` left
      after cutting white space from both ends. It is empty exactly when `s`
      is all white space, and otherwise starts and ends with a character
      that is not white space. */
  function Trim(s: string): (r: string)
    ensures |r| <= |s|
    ensures IsTrimmed(r)
    ensures r == [] <==> AllWhitespace(s)
    ensures exists i :: 0 <= i <= |s| - |r| && r == s[i..i + |r|]
                        && AllWhitespace(s[..i]) && AllWhitespace(s[i + |r|..])
  {
    var a := SkipSpace(s, 0);
    var b := SkipSpaceBack(s, a, |s|);
    TrimCut(s, a, b);
    s[a..b]
  }

  /** The facts behind `Trim`'s contract, from the contracts of the two
      scans. */
  lemma TrimCut(s: string, a: nat, b: nat)
    requires a == SkipSpace(s, 0) && b == SkipSpaceBack(s, a, |s|)
    ensures IsTrimmed(s[a..b])
    ensures s[a..b] == [] <==> AllWhitespace(s)
    ensures AllWhitespace(s[..a]) && AllWhitespace(s[b..])
  {
    var r := s[a..b];
    if a < b {
      assert r[0] == s[a] && r[|r| - 1] == s[b - 1];
    } else {
      forall k | 0 <= k < |s| ensures IsWhitespace(s[k]) {
      }
    }
    forall k | 0 <= k < a ensures IsWhitespace(s[..a][k]) {
      assert s[..a][k] == s[k];
    }
    forall k | 0 <= k < |s| - b ensures IsWhitespace(s[b..][k]) {
      assert s[b..][k] == s[b + k];
    }
  }

  /** A string that is already trimmed is its own trim. */
  lemma TrimOfTrimmed(s: string)
    requires IsTrimmed(s)
    ensures Trim(s) == s
  {
    assert SkipSpace(s, 0) == 0;
    assert SkipSpaceBack(s, 0, |s|) == |s|;
    assert s[0..|s|] == s;
  }

  /** Trimming is idempotent. */
  lemma TrimIdempotent(s: string)
    ensures Trim(Trim(s)) == Trim(s)
  {
    TrimOfTrimmed(Trim(s));
  }

  // ---------------------------------------------------------------------
  // Filtering
  // ---------------------------------------------------------------------

  /** `s` with every character satisfying `drop` removed, the others kept in
      order: what `s.replace(/[...]/g, '')` and `re.sub(r'[...]', '', s)`
      compute. */
  function Without(s: string, drop: char -> bool): (r: string)
    ensures |r| <= |s|
    ensures forall i :: 0 <= i < |r| ==> !drop(r[i])
    decreases |s|
  {
    if |s| == 0 then [] else (if drop(s[0]) then [] else [s[0]]) + Without(s[1..], drop)
  }

  /** Removal keeps every occurrence of each kept character and none of the
      dropped ones. */
  lemma {:induction false} WithoutCounts(s: string, drop: char -> bool, c: char)
    ensures multiset(Without(s, drop))[c] == if drop(c) then 0 else multiset(s)[c]
    decreases |s|
  {
    if |s| > 0 {
      WithoutCounts(s[1..], drop, c);
      assert s == [s[0]] + s[1..];
    }
  }

  /** Removal distributes over concatenation, so it keeps the order of the
      characters it does not drop. */
  lemma {:induction false} WithoutAppend(a: string, b: string, drop: char -> bool)
    ensures Without(a + b, drop) == Without(a, drop) + Without(b, drop)
    decreases |a|
  {
    if |a| == 0 {
      assert a + b == b;
    } else {
      assert (a + b)[1..] == a[1..] + b;
      WithoutAppend(a[1..], b, drop);
    }
  }

  /** Nothing is removed from a string with no dropped character. */
  lemma {:induction false} WithoutKeepsAll(s: string, drop: char -> bool)
    requires forall i :: 0 <= i < |s| ==> !drop(s[i])
    ensures Without(s, drop) == s
    decreases |s|
  {
    if |s| > 0 {
      WithoutKeepsAll(s[1..], drop);
    }
  }

  /** Everything is removed from a string of dropped characters. */
  lemma {:induction false} WithoutDropsAll(s: string, drop: char -> bool)
    requires forall i :: 0 <= i < |s| ==> drop(s[i])
    ensures Without(s, drop) == ""
    decreases |s|
  {
    if |s| > 0 {
      WithoutDropsAll(s[1..], drop);
    }
  }

  /** Removing by `p` and then by `q` is removing by "either". */
  lemma {:induction false} WithoutTwice(s: string, p: char -> bool, q: char -> bool, either: char -> bool)
    requires forall c :: either(c) == (p(c) || q(c))
    ensures Without(Without(s, p), q) == Without(s, either)
    decreases |s|
  {
    if |s| > 0 {
      WithoutTwice(s[1..], p, q, either);
      var head := if p(s[0]) then [] else [s[0]];
      WithoutAppend(head, Without(s[1..], p), q);
      if !p(s[0]) {
        assert Without(head, q) == (if q(s[0]) then [] else [s[0]]) by {
          assert head[1..] == [];
        }
      }
    }
  }

  // ---------------------------------------------------------------------
  // Two-character separators, joining and splitting
  // ---------------------------------------------------------------------

  /** A two-character separator whose characters differ, such as ", " or
      ": ": no occurrence of it can overlap another, or straddle the join of
      a separator-free string and a following copy of it. */
  predicate IsPairSeparator(sep: string) {
    |sep| == 2 && sep[0] != sep[1]
  }

  predicate OccursAt(s: string, sep: string, i: int) {
    0 <= i && i + |sep| <= |s| && s[i..i + |sep|] == sep
  }

  predicate Contains(s: string, sep: string) {
    exists i :: 0 <= i <= |s| - |sep| && OccursAt(s, sep, i)
  }

  /** The index of the first occurrence of `sep` in `s`, if any. */
  function Find(s: string, sep: string): (r: Option<nat>)
    requires |sep| > 0
    ensures r.Some? ==> OccursAt(s, sep, r.value)
    ensures r.Some? ==> forall j :: 0 <= j < r.value ==> !OccursAt(s, sep, j)
    ensures r.None? <==> !Contains(s, sep)
    decreases |s|
  {
    if |s| < |sep| then
      None
    else if s[..|sep|] == sep then
      assert OccursAt(s, sep, 0);
      Some(0)
    else
      var r := Find(s[1..], sep);
      assert forall j :: 0 <= j ==> (OccursAt(s[1..], sep, j) <==> OccursAt(s, sep, j + 1)) by {
        forall j | 0 <= j
          ensures OccursAt(s[1..], sep, j) <==> OccursAt(s, sep, j + 1)
        {
          if j + 1 + |sep| <= |s| {
            assert s[1..][j..j + |sep|] == s[j + 1..j + 1 + |sep|];
          }
        }
      }
      assert !OccursAt(s, sep, 0);
      match r
      case None =>
        assert forall j :: !OccursAt(s, sep, j) by {
          forall j ensures !OccursAt(s, sep, j) {
            if j > 0 {
              assert !OccursAt(s[1..], sep, j - 1);
            }
          }
        }
        None
      case Some(k) =>
        assert OccursAt(s, sep, k + 1);
        assert forall j :: 0 <= j < k + 1 ==> !OccursAt(s, sep, j) by {
          forall j | 0 < j < k + 1 ensures !OccursAt(s, sep, j) {
            assert !OccursAt(s[1..], sep, j - 1);
          }
        }
        Some(k + 1)
  }

  /** If `p` does not contain the pair separator, the first occurrence of
      it in `p + sep + q` is the one right after `p`. */
  lemma FindAfterPrefix(p: string, sep: string, q: string)
    requires IsPairSeparator(sep)
    requires !Contains(p, sep)
    ensures Find(p + sep + q, sep) == Some(|p|)
  {
    var s := p + sep + q;
    assert s[|p|..|p| + 2] == sep;
    assert OccursAt(s, sep, |p|);
    assert OccursAt(s, sep, |p|);
    var k := Find(s, sep).value;
    if k < |p| {
      if k + 2 <= |p| {
        assert s[k..k + 2] == p[k..k + 2];
        assert OccursAt(p, sep, k);
      }
      assert false;
    }
  }

  /** `Array.prototype.join(sep)`: the parts with `sep` between neighbours. */
  function Join(parts: seq<string>, sep: string): (r: string)
    ensures |parts| == 0 ==> r == ""
    ensures |parts| == 1 ==> r == parts[0]
    decreases |parts|
  {
    if |parts| == 0 then ""
    else if |parts| == 1 then parts[0]
    else parts[0] + sep + Join(parts[1..], sep)
  }

  /** A join is at least as long as its first part. */
  lemma JoinLength(parts: seq<string>, sep: string)
    requires |parts| > 0
    ensures |Join(parts, sep)| >= |parts[0]|
  {
    if |parts| > 1 {
      assert Join(parts, sep) == parts[0] + sep + Join(parts[1..], sep);
    }
  }

  /** The inverse of `Join`: the pieces of `s` between occurrences of `sep`.
      Joining the pieces gives `s` back, and no piece contains `sep`. */
  function Split(s: string, sep: string): (parts: seq<string>)
    requires |sep| > 0
    ensures |parts| >= 1
    ensures forall i :: 0 <= i < |parts| ==> !Contains(parts[i], sep)
    ensures Join(parts, sep) == s
    decreases |s|
  {
    match Find(s, sep)
    case None => [s]
    case Some(i) =>
      var head := s[..i];
      var rest := Split(s[i + |sep|..], sep);
      assert !Contains(head, sep) by {
        forall j | OccursAt(head, sep, j)
          ensures false
        {
          assert s[j..j + |sep|] == head[j..j + |sep|];
          assert OccursAt(s, sep, j);
        }
      }
      var parts := [head] + rest;
      assert parts[1..] == rest;
      assert s == head + sep + s[i + |sep|..];
      parts
  }

  /** One step of `Split` at the first occurrence `i` of the separator. */
  lemma SplitAt(s: string, sep: string, i: nat)
    requires |sep| > 0 && Find(s, sep) == Some(i)
    ensures Split(s, sep) == [s[..i]] + Split(s[i + |sep|..], sep)
  {
  }

  /** Splitting undoes joining, provided no part contains the separator. */
  lemma {:induction false} SplitJoin(parts: seq<string>, sep: string)
    requires IsPairSeparator(sep)
    requires |parts| >= 1
    requires forall i :: 0 <= i < |parts| ==> !Contains(parts[i], sep)
    ensures Split(Join(parts, sep), sep) == parts
    decreases |parts|
  {
    if |parts| == 1 {
      assert Find(parts[0], sep).None?;
    } else {
      var head := parts[0];
      var rest := Join(parts[1..], sep);
      var s := head + sep + rest;
      assert Join(parts, sep) == s;
      FindAfterPrefix(head, sep, rest);
      SplitAt(s, sep, |head|);
      assert s[..|head|] == head;
      assert s[|head| + |sep|..] == rest;
      SplitJoin(parts[1..], sep);
      assert parts == [head] + parts[1..];
    }
  }

  // ---------------------------------------------------------------------
  // Decimal rendering
  // ---------------------------------------------------------------------

  function DigitChar(d: nat): (c: char)
    requires d < 10
    ensures IsDigit(c)
  {
    ('0' as int + d) as char
  }

  /** The decimal numeral of `n`, as Python's `str(n)` renders it. */
  function ShowNat(n: nat): (r: string)
    ensures 1 <= |r| && AllDigits(r)
    ensures |r| > 1 ==> r[0] != '0'
    decreases n
  {
    if n < 10 then [DigitChar(n)] else ShowNat(n / 10) + [DigitChar(n % 10)]
  }

  /** The value of a string of decimal digits. */
  function ReadNat(s: string): nat
    requires AllDigits(s)
    decreases |s|
  {
    if |s| == 0 then 0 else ReadNat(s[..|s| - 1]) * 10 + (s[|s| - 1] as int - '0' as int)
  }

  /** Reading back a rendered numeral gives the number. */
  lemma {:induction false} ReadShowNat(n: nat)
    ensures ReadNat(ShowNat(n)) == n
    decreases n
  {
    if n >= 10 {
      var s := ShowNat(n);
      assert s[..|s| - 1] == ShowNat(n / 10);
      ReadShowNat(n / 10);
    }
  }
}

=== FILE: validation.dfy ===
/** The client-side validator of frontend/src/utils/validation.js:
    `validateContact`, `isValidEmail`, `isValidPhone` and
    `formatValidationErrors`. */
module Validation {
  import opened Wrappers
  import opened Text
  import opened Messages
  import opened Patterns

  /** The seven properties of a contact. */
  datatype Field = FirstName | LastName | Email | Telephone | Company | Address | Notes

  /** The property name a field has in the contact object and in the
      errors object. */
  function Key(f: Field): string {
    match f
    case FirstName => "first_name"
    case LastName => "last_name"
    case Email => "email"
    case Telephone => "telephone"
    case Company => "company"
    case Address => "address"
    case Notes => "notes"
  }

  /** The object `validateContact` receives. Any property may be missing,
      and every rule reads a property through JavaScript truthiness or `?.`,
      so `None` and `Some("")` are both "absent". */
  datatype Draft = Draft(
    first_name: Option<string>,
    last_name: Option<string>,
    email: Option<string>,
    telephone: Option<string>,
    company: Option<string>,
    address: Option<string>,
    notes: Option<string>)

  function Get(d: Draft, f: Field): Option<string> {
    match f
    case FirstName => d.first_name
    case LastName => d.last_name
    case Email => d.email
    case Telephone => d.telephone
    case Company => d.company
    case Address => d.address
    case Notes => d.notes
  }

  /** `d` with field `f` replaced by `v` and nothing else changed. */
  function With(d: Draft, f: Field, v: Option<string>): (r: Draft)
    ensures Get(r, f) == v
    ensures forall g :: g != f ==> Get(r, g) == Get(d, g)
  {
    match f
    case FirstName => d.(first_name := v)
    case LastName => d.(last_name := v)
    case Email => d.(email := v)
    case Telephone => d.(telephone := v)
    case Company => d.(company := v)
    case Address => d.(address := v)
    case Notes => d.(notes := v)
  }

  /** JavaScript truthiness of an optional string property. */
  predicate Present(v: Option<string>) {
    v.Some? && v.value != ""
  }

  /** The fields `validateContact` checks, in the order it inserts their
      keys into the errors object. */
  const CheckedFields: seq<Field> := [FirstName, LastName, Email, Telephone, Notes]

  /** An errors object: property name to message. Every property name the
      program ever uses is `Key(f)` for some field `f`, and `Key` is
      injective, so the map is keyed by the field itself. */
  type Errors = map<Field, string>

  /** The value `validateContact` returns: `{isValid, errors}`. */
  datatype Verdict = Verdict(isValid: bool, errors: Errors)

  function Lookup(m: Errors, f: Field): Option<string> {
    if f in m then Some(m[f]) else None
  }

  // ---------------------------------------------------------------------
  // The field rules
  // ---------------------------------------------------------------------

  /** A name the name rule lets through: present, with a character that is
      not white space, and at least two characters long before trimming. */
  ghost predicate NameAcceptable(v: Option<string>) {
    && v.Some?
    && |v.value| >= 2
    && exists i :: 0 <= i < |v.value| && !IsWhitespace(v.value[i])
  }

  /** The first-name and last-name rules: a missing, empty or blank name is
      "required"; any other name shorter than two characters, counted
      before trimming, is "too short". */
  function NameRule(v: Option<string>, name: NameLabel): (r: Option<string>)
    ensures r == Some(NameRequired(name)) <==> v.None? || AllWhitespace(v.value)
    ensures r == Some(NameTooShort(name)) <==> v.Some? && !AllWhitespace(v.value) && |v.value| < 2
    ensures r.None? <==> NameAcceptable(v)
  {
    NameMessagesDistinct(name);
    if v.None? || Trim(v.value) == "" then Some(NameRequired(name))
    else if |v.value| < 2 then Some(NameTooShort(name))
    else None
  }

  /** `isValidEmail`. */
  predicate IsValidEmail(email: string) {
    IsEmail(email)
  }

  /** The e-mail rule: an absent e-mail is fine; a present one must match
      the pattern. */
  function EmailRule(v: Option<string>): (r: Option<string>)
    ensures r.Some? <==> Present(v) && !MatchesEmailPattern(v.value)
    ensures r.Some? ==> r.value == InvalidEmail
  {
    if Present(v) then
      EmailMatchesPattern(v.value);
      if !IsValidEmail(v.value) then Some(InvalidEmail) else None
    else
      None
  }

  /** `[\s\-\(\)]`: the characters `isValidPhone` removes before matching. */
  predicate IsPhoneSeparator(c: char) {
    IsWhitespace(c) || c == '-' || c == '(' || c == ')'
  }

  function StripSeparators(phone: string): string {
    Without(phone, IsPhoneSeparator)
  }

  /** The regular expression `^[\+]?[1-9][\d]{0,15}$` read off its
      structure: an optional `+` (taken or not: `sign` is 1 or 0), a digit
      from 1 to 9, then at most fifteen digits. */
  ghost predicate MatchesPhonePattern(t: string) {
    exists sign ::
      && 0 <= sign <= 1 && sign < |t| && (sign == 1 ==> t[0] == '+')
      && '1' <= t[sign] <= '9' && |t| - sign - 1 <= 15 && AllDigits(t[sign + 1..])
  }

  /** A deterministic reading of the phone pattern: drop one leading `+`;
      what is left is one to sixteen digits, the first of them not `0`. */
  predicate IsPhoneNumber(t: string) {
    var digits := if |t| > 0 && t[0] == '+' then t[1..] else t;
    1 <= |digits| <= 16 && digits[0] != '0' && AllDigits(digits)
  }

  /** The deterministic reading accepts exactly what the pattern matches. */
  lemma PhoneNumberMatchesPattern(t: string)
    ensures IsPhoneNumber(t) <==> MatchesPhonePattern(t)
  {
    if IsPhoneNumber(t) {
      PhoneNumberSound(t);
    }
    if MatchesPhonePattern(t) {
      PhoneNumberComplete(t);
    }
  }

  lemma PhoneNumberSound(t: string)
    requires IsPhoneNumber(t)
    ensures MatchesPhonePattern(t)
  {
    var sign := if t[0] == '+' then 1 else 0;
    var digits := t[sign..];
    assert digits == (if |t| > 0 && t[0] == '+' then t[1..] else t);
    assert t[sign] == digits[0];
    var rest := t[sign + 1..];
    forall i | 0 <= i < |rest|
      ensures IsDigit(rest[i])
    {
      assert rest[i] == digits[i + 1];
    }
  }

  lemma PhoneNumberComplete(t: string)
    requires MatchesPhonePattern(t)
    ensures IsPhoneNumber(t)
  {
    var sign :|
      && 0 <= sign <= 1 && sign < |t| && (sign == 1 ==> t[0] == '+')
      && '1' <= t[sign] <= '9' && |t| - sign - 1 <= 15 && AllDigits(t[sign + 1..]);
    var digits := t[sign..];
    assert (if |t| > 0 && t[0] == '+' then t[1..] else t) == digits;
    forall i | 0 <= i < |digits|
      ensures IsDigit(digits[i])
    {
      if i > 0 {
        assert digits[i] == t[sign + 1..][i - 1];
      }
    }
  }

  /** `isValidPhone`: strip the separators, then match the phone pattern. */
  predicate IsValidPhone(phone: string) {
    IsPhoneNumber(StripSeparators(phone))
  }

  /** The telephone rule: an absent telephone is fine; a present one must
      match the phone pattern once its separators are stripped. */
  function PhoneRule(v: Option<string>): (r: Option<string>)
    ensures r.Some? <==> Present(v) && !MatchesPhonePattern(StripSeparators(v.value))
    ensures r.Some? ==> r.value == InvalidPhone
  {
    if Present(v) then
      PhoneNumberMatchesPattern(StripSeparators(v.value));
      if !IsValidPhone(v.value) then Some(InvalidPhone) else None
    else
      None
  }

  /** The notes rule: at most 500 characters; absent notes are fine. */
  function NotesRule(v: Option<string>): (r: Option<string>)
    ensures r.Some? <==> v.Some? && |v.value| > MaxNotesLength
    ensures r.Some? ==> r.value == NotesTooLong
  {
    if Present(v) && |v.value| > MaxNotesLength then Some(NotesTooLong) else None
  }

  /** The message the validator reports for field `f` holding `v`, if any.
      It reads nothing but `v`; company and address have no rule. */
  function FieldRule(f: Field, v: Option<string>): (r: Option<string>)
    ensures r.Some? ==> r.value != ""
    ensures (f == Company || f == Address) ==> r.None?
  {
    match f
    case FirstName => NameRule(v, First)
    case LastName => NameRule(v, Last)
    case Email => EmailRule(v)
    case Telephone => PhoneRule(v)
    case Notes => NotesRule(v)
    case Company => None
    case Address => None
  }

  /** Different fields have different property names. */
  lemma KeyInjective(f: Field, g: Field)
    requires f != g
    ensures Key(f) != Key(g)
  {
  }

  // ---------------------------------------------------------------------
  // validateContact
  // ---------------------------------------------------------------------

  /** `errors.<key> = msg` when a rule produced a message. */
  function Report(errors: Errors, f: Field, msg: Option<string>): Errors {
    if msg.Some? then errors[f := msg.value] else errors
  }

  /** The errors object `validateContact` builds: each rule runs in turn
      and records its message under its field's key. */
  function CollectErrors(d: Draft): Errors {
    Report(Report(Report(Report(Report(map[],
      FirstName, NameRule(d.first_name, First)),
      LastName, NameRule(d.last_name, Last)),
      Email, EmailRule(d.email)),
      Telephone, PhoneRule(d.telephone)),
      Notes, NotesRule(d.notes))
  }

  lemma ReportLookup(m: Errors, f: Field, msg: Option<string>, g: Field)
    ensures Lookup(Report(m, f, msg), g) == if g == f && msg.Some? then msg else Lookup(m, g)
  {
  }

  /** Each field's entry in the collected errors is its own rule's message. */
  lemma CollectErrorsLookup(d: Draft, f: Field)
    ensures Lookup(CollectErrors(d), f) == FieldRule(f, Get(d, f))
  {
    var m1 := Report(map[], FirstName, NameRule(d.first_name, First));
    var m2 := Report(m1, LastName, NameRule(d.last_name, Last));
    var m3 := Report(m2, Email, EmailRule(d.email));
    var m4 := Report(m3, Telephone, PhoneRule(d.telephone));
    var m5 := Report(m4, Notes, NotesRule(d.notes));
    ReportLookup(map[], FirstName, NameRule(d.first_name, First), f);
    ReportLookup(m1, LastName, NameRule(d.last_name, Last), f);
    ReportLookup(m2, Email, EmailRule(d.email), f);
    ReportLookup(m3, Telephone, PhoneRule(d.telephone), f);
    ReportLookup(m4, Notes, NotesRule(d.notes), f);
  }

  /** `validateContact`: every rule runs, each failing field gets exactly
      one entry holding its rule's message, and `isValid` holds exactly
      when no entry was made. */
  function ValidateContact(d: Draft): (r: Verdict)
    ensures r.isValid <==> r.errors == map[]
    ensures forall f :: f in r.errors ==> f in CheckedFields && r.errors[f] != ""
    ensures forall f :: Lookup(r.errors, f) == FieldRule(f, Get(d, f))
  {
    var errors := CollectErrors(d);
    forall f ensures Lookup(errors, f) == FieldRule(f, Get(d, f)) {
      CollectErrorsLookup(d, f);
    }
    assert forall f :: f in errors ==> f in CheckedFields && errors[f] != "" by {
      forall f | f in errors ensures f in CheckedFields && errors[f] != "" {
        assert Lookup(errors, f) == FieldRule(f, Get(d, f));
      }
    }
    Verdict(|errors| == 0, errors)
  }

  /** What the validator accepts, stated from the patterns rather than the
      code: both names acceptable, a present e-mail matches the e-mail
      pattern, a present telephone matches the phone pattern after its
      separators are stripped, and notes have at most 500 characters. */
  ghost predicate Acceptable(d: Draft) {
    && NameAcceptable(d.first_name)
    && NameAcceptable(d.last_name)
    && (Present(d.email) ==> MatchesEmailPattern(d.email.value))
    && (Present(d.telephone) ==> MatchesPhonePattern(StripSeparators(d.telephone.value)))
    && (d.notes.Some? ==> |d.notes.value| <= MaxNotesLength)
  }

  /** `isValid` is exactly acceptability. */
  lemma ValidIffAcceptable(d: Draft)
    ensures ValidateContact(d).isValid <==> Acceptable(d)
  {
    var r := ValidateContact(d);
    assert Lookup(r.errors, FirstName) == NameRule(d.first_name, First);
    assert Lookup(r.errors, LastName) == NameRule(d.last_name, Last);
    assert Lookup(r.errors, Email) == EmailRule(d.email);
    assert Lookup(r.errors, Telephone) == PhoneRule(d.telephone);
    assert Lookup(r.errors, Notes) == NotesRule(d.notes);
    if !r.isValid {
      var f :| f in r.errors;
      assert Lookup(r.errors, f).Some?;
    }
  }

  /** Errors accumulate: changing one field leaves every other field's
      entry as it was. */
  lemma OtherEntriesUnchanged(d: Draft, f: Field, v: Option<string>, g: Field)
    requires g != f
    ensures Lookup(ValidateContact(With(d, f, v)).errors, g) == Lookup(ValidateContact(d).errors, g)
  {
  }

  // ---------------------------------------------------------------------
  // formatValidationErrors
  // ---------------------------------------------------------------------

  /** The messages of `errors` for the listed fields, in list order. */
  function MessagesFor(errors: Errors, fields: seq<Field>): (r: seq<string>)
    ensures |r| <= |fields|
    ensures r == [] <==> forall i :: 0 <= i < |fields| ==> fields[i] !in errors
    ensures forall m :: m in r ==> exists f :: f in fields && f in errors && errors[f] == m
    ensures forall f :: f in fields && f in errors ==> errors[f] in r
    decreases |fields|
  {
    if |fields| == 0 then
      []
    else
      var rest := MessagesFor(errors, fields[1..]);
      assert forall f :: f in fields ==> f == fields[0] || f in fields[1..];
      if fields[0] in errors then [errors[fields[0]]] + rest else rest
  }

  /** The message of field `f`, as a list of zero or one. */
  function Entry(errors: Errors, f: Field): seq<string> {
    if f in errors then [errors[f]] else []
  }

  /** The messages follow the order of the fields: a list of fields made
      of two parts gives the first part's messages, then the second's. */
  lemma {:induction false} MessagesForAppend(errors: Errors, a: seq<Field>, b: seq<Field>)
    ensures MessagesFor(errors, a + b) == MessagesFor(errors, a) + MessagesFor(errors, b)
    decreases |a|
  {
    if |a| == 0 {
      assert a + b == b;
    } else {
      var first := Entry(errors, a[0]);
      assert MessagesFor(errors, a + b) == first + MessagesFor(errors, a[1..] + b) by {
        assert (a + b)[0] == a[0] && (a + b)[1..] == a[1..] + b;
        MessagesForCons(errors, a + b);
      }
      assert MessagesFor(errors, a) == first + MessagesFor(errors, a[1..]) by {
        MessagesForCons(errors, a);
      }
      MessagesForAppend(errors, a[1..], b);
      ConcatAssociative(first, MessagesFor(errors, a[1..]), MessagesFor(errors, b));
    }
  }

  lemma ConcatAssociative(x: seq<string>, y: seq<string>, z: seq<string>)
    ensures x + (y + z) == (x + y) + z
  {
  }

  /** The first field's message comes first. */
  lemma MessagesForCons(errors: Errors, fields: seq<Field>)
    requires |fields| > 0
    ensures MessagesFor(errors, fields) == Entry(errors, fields[0]) + MessagesFor(errors, fields[1..])
  {
  }

  /** The messages of a whole errors object come out as the first-name
      message, then last name, e-mail, telephone and notes, each only when
      that field has an entry. */
  lemma OrderedMessagesInOrder(errors: Errors)
    ensures OrderedMessages(errors)
            == Entry(errors, FirstName) + (Entry(errors, LastName) + (Entry(errors, Email)
               + (Entry(errors, Telephone) + Entry(errors, Notes))))
  {
    MessagesForFive(errors, FirstName, LastName, Email, Telephone, Notes);
  }

  lemma MessagesForFive(errors: Errors, f1: Field, f2: Field, f3: Field, f4: Field, f5: Field)
    ensures MessagesFor(errors, [f1, f2, f3, f4, f5])
            == Entry(errors, f1) + (Entry(errors, f2) + (Entry(errors, f3) + (Entry(errors, f4) + Entry(errors, f5))))
  {
    var e1, e2, e3, e4, e5 := Entry(errors, f1), Entry(errors, f2), Entry(errors, f3), Entry(errors, f4), Entry(errors, f5);
    var t4 := [f4] + [f5];
    var t3 := [f3] + t4;
    var t2 := [f2] + t3;
    assert MessagesFor(errors, t4) == e4 + e5 by {
      MessagesForAppend(errors, [f4], [f5]);
      MessagesForOne(errors, f4);
      MessagesForOne(errors, f5);
    }
    assert MessagesFor(errors, t3) == e3 + (e4 + e5) by {
      MessagesForAppend(errors, [f3], t4);
      MessagesForOne(errors, f3);
    }
    assert MessagesFor(errors, t2) == e2 + (e3 + (e4 + e5)) by {
      MessagesForAppend(errors, [f2], t3);
      MessagesForOne(errors, f2);
    }
    assert MessagesFor(errors, [f1] + t2) == e1 + (e2 + (e3 + (e4 + e5))) by {
      MessagesForAppend(errors, [f1], t2);
      MessagesForOne(errors, f1);
    }
    assert [f1, f2, f3, f4, f5] == [f1] + t2;
  }

  lemma MessagesForOne(errors: Errors, f: Field)
    ensures MessagesFor(errors, [f]) == Entry(errors, f)
  {
    MessagesForCons(errors, [f]);
    assert [f][1..] == [];
  }

  /** `Object.values(errors)`. The errors objects of this program only
      ever hold checked keys, inserted in the validator's order, and
      deleting a key keeps the order of the rest, so the values come out in
      the order of `CheckedFields`. */
  function OrderedMessages(errors: Errors): seq<string> {
    MessagesFor(errors, CheckedFields)
  }

  /** `formatValidationErrors`: the messages joined with ", ". */
  function FormatValidationErrors(errors: Errors): string {
    Join(OrderedMessages(errors), ", ")
  }

  /** One of the messages the validator can report. */
  predicate IsValidatorMessage(m: string) {
    || m == NameRequired(First) || m == NameTooShort(First)
    || m == NameRequired(Last) || m == NameTooShort(Last)
    || m == InvalidEmail || m == InvalidPhone || m == NotesTooLong
  }

  lemma NoCommaNoSeparator(m: string)
    requires ',' !in m
    ensures !Contains(m, ", ")
  {
    forall i | 0 <= i <= |m| - 2
      ensures !OccursAt(m, ", ", i)
    {
      assert m[i] in m;
    }
  }

  /** No validator message contains the ", " that joins them. */
  lemma ValidatorMessageHasNoSeparator(m: string)
    requires IsValidatorMessage(m)
    ensures !Contains(m, ", ")
  {
    if m == NameRequired(First) || m == NameTooShort(First) {
      NameMessageHasNoComma(First);
    } else if m == NameRequired(Last) || m == NameTooShort(Last) {
      NameMessageHasNoComma(Last);
    } else {
      assert ',' !in m;
    }
    NoCommaNoSeparator(m);
  }

  lemma NameMessageHasNoComma(name: NameLabel)
    ensures ',' !in NameRequired(name) && ',' !in NameTooShort(name)
  {
    assert ',' !in LabelText(name);
    assert ',' !in " is required";
    assert ',' !in " must be at least 2 characters";
  }

  /** Every message the validator reports is one of its fixed messages. */
  lemma ReportedMessages(d: Draft, f: Field)
    requires f in ValidateContact(d).errors
    ensures IsValidatorMessage(ValidateContact(d).errors[f])
  {
    assert Lookup(ValidateContact(d).errors, f) == FieldRule(f, Get(d, f));
  }

  /** The formatted text is empty exactly when the draft is valid. */
  lemma FormatEmptyIffValid(d: Draft)
    ensures FormatValidationErrors(ValidateContact(d).errors) == "" <==> ValidateContact(d).isValid
  {
    var e := ValidateContact(d).errors;
    var ms := OrderedMessages(e);
    if !ValidateContact(d).isValid {
      var f :| f in e;
      assert e[f] in ms;
      assert ms[0] in ms;
      JoinLength(ms, ", ");
    }
  }

  /** Splitting the formatted text at ", " gives back the reported
      messages, in insertion order. */
  lemma FormatRoundTrip(d: Draft)
    requires !ValidateContact(d).isValid
    ensures Split(FormatValidationErrors(ValidateContact(d).errors), ", ")
            == OrderedMessages(ValidateContact(d).errors)
  {
    var e := ValidateContact(d).errors;
    var ms := OrderedMessages(e);
    var f :| f in e;
    assert e[f] in ms;
    forall i | 0 <= i < |ms|
      ensures !Contains(ms[i], ", ")
    {
      assert ms[i] in ms;
      var g :| g in CheckedFields && g in e && e[g] == ms[i];
      ReportedMessages(d, g);
      ValidatorMessageHasNoSeparator(ms[i]);
    }
    SplitJoin(ms, ", ");
  }
}

=== FILE: validation_examples.dfy ===
/** Worked examples of the client-side validator: the behaviours the
    validation rules are meant to show on concrete input. */
module ValidationExamples {
  import opened Wrappers
  import opened Text
  import opened Messages
  import opened Patterns
  import opened Validation

  /** A draft whose only failing rule is the first-name rule gets exactly
      one entry. */
  lemma OnlyFirstNameFails(d: Draft, m: string)
    requires NameRule(d.first_name, First) == Some(m)
    requires NameRule(d.last_name, Last) == None
    requires EmailRule(d.email) == None && PhoneRule(d.telephone) == None && NotesRule(d.notes) == None
    ensures ValidateContact(d) == Verdict(false, map[FirstName := m])
  {
    var e := ValidateContact(d).errors;
    assert Lookup(e, FirstName) == Some(m);
    forall f | f != FirstName
      ensures f !in e
    {
      assert Lookup(e, f) == FieldRule(f, Get(d, f));
    }
    assert e.Keys == {FirstName};
  }

  lemma OneLetterNameTooShort()
    ensures NameRule(Some("A"), First) == Some(NameTooShort(First))
  {
    assert !AllWhitespace("A") by {
      assert !IsWhitespace("A"[0]);
    }
  }

  lemma ThreeLetterNameAccepted()
    ensures NameRule(Some("Bee"), Last) == None
  {
    assert !AllWhitespace("Bee") by {
      assert !IsWhitespace("Bee"[0]);
    }
  }

  /** A one-letter first name is reported as too short, not as missing,
      and it is the only error. */
  lemma ShortFirstNameExample()
    ensures ValidateContact(Draft(Some("A"), Some("Bee"), Some(""), Some(""), Some(""), Some(""), Some("")))
            == Verdict(false, map[FirstName := NameTooShort(First)])
  {
    OneLetterNameTooShort();
    ThreeLetterNameAccepted();
    OnlyFirstNameFails(Draft(Some("A"), Some("Bee"), Some(""), Some(""), Some(""), Some(""), Some("")),
                       NameTooShort(First));
  }

  /** Stripping a run `a` of kept characters, then a run `b` of
      separators, then `rest`, keeps `a` and strips `rest`. */
  lemma StripKeepDrop(a: string, b: string, rest: string)
    requires forall i :: 0 <= i < |a| ==> !IsPhoneSeparator(a[i])
    requires forall i :: 0 <= i < |b| ==> IsPhoneSeparator(b[i])
    ensures StripSeparators(a + (b + rest)) == a + StripSeparators(rest)
  {
    WithoutKeepsAll(a, IsPhoneSeparator);
    WithoutDropsAll(b, IsPhoneSeparator);
    WithoutAppend(a, b + rest, IsPhoneSeparator);
    WithoutAppend(b, rest, IsPhoneSeparator);
  }

  /** Separators are stripped before matching. */
  lemma FormattedPhoneAccepted(phone: string)
    requires phone == "+1 (555) 123-4567"
    ensures IsValidPhone(phone)
  {
    var rest := "555" + (") " + ("123" + ("-" + "4567")));
    assert StripSeparators(rest) == "5551234567" by {
      StripFormattedRest(rest);
    }
    assert StripSeparators(phone) == "+15551234567" by {
      assert phone == "+1" + (" (" + rest);
      StripKeepDrop("+1", " (", rest);
    }
    ElevenDigitNumber();
  }

  lemma StripFormattedRest(rest: string)
    requires rest == "555" + (") " + ("123" + ("-" + "4567")))
    ensures StripSeparators(rest) == "5551234567"
  {
    var tail := "4567";
    assert StripSeparators(tail) == tail by {
      WithoutKeepsAll(tail, IsPhoneSeparator);
    }
    assert StripSeparators("123" + ("-" + tail)) == "1234567" by {
      StripKeepDrop("123", "-", tail);
    }
    StripKeepDrop("555", ") ", "123" + ("-" + tail));
  }

  lemma ElevenDigitNumber()
    ensures IsPhoneNumber("+15551234567")
  {
  }

  /** A leading zero is refused. */
  lemma LeadingZeroPhoneRefused()
    ensures !IsValidPhone("0123")
  {
    assert StripSeparators("0123") == "0123" by {
      WithoutKeepsAll("0123", IsPhoneSeparator);
    }
  }

  /** A short well-formed address is accepted. */
  lemma ShortEmailAccepted()
    ensures IsValidEmail("a@b.co")
  {
    EmailComplete("a@b.co", 1, 3);
  }

  /** A string without `@` is refused, whatever else it holds. */
  lemma NoAtSignRefused(s: string)
    requires '@' !in s
    ensures !IsValidEmail(s)
  {
  }

  /** Notes of 500 characters pass; notes of 501 do not. */
  lemma NotesBoundary(five: string, six: string)
    requires |five| == 500 && |six| == 501
    ensures NotesRule(Some(five)).None?
    ensures NotesRule(Some(six)) == Some(NotesTooLong)
  {
  }
}

=== FILE: wrappers.dfy ===
/** Option and Result, the two failure-carrying shapes the rest of the model uses. */
module Wrappers {

  /** An optional value: a JavaScript property that may be missing, or a
      Python value that may be `None`. */
  datatype Option<+T> = None | Some(value: T)

  /** The outcome of a Python validator: the value it returns, or the
      message of the `ValueError` it raises. */
  datatype Result<+T, +E> = Ok(value: T) | Err(error: E)
}
